=== FILE: README.md ===
# Honeypot detection core, modelled in Dafny

This project models the detection and classification core of a Django bot-traffic honeypot.
The honeypot exposes a decoy endpoint. Every GET and POST to it is stored as a bot event, and every field value is scanned against a catalog of attack signatures. A GET is answered with a form that hides a fresh correlation token, so a later POST that submits the form can be linked back to it. Stored events are then counted per path as scans, spam or attacks.

The modules follow the program:

- `Enums`: the attack categories and HTTP methods (`myapp/enums.py`).
- `Patterns`: the 34-entry signature catalog (`myapp/patterns.py`). Seven literal patterns are matched concretely. Every other pattern goes to a regex engine that is a parameter of the model.
- `Literals`: Python `re.search` for a case-insensitive alternation of literal strings.
- `Scanner`: a full sweep of one value over the catalog.
- `Email`: `EMAIL_REGEX` (`myapp/utils.py:6`), modelled concretely. This covers the greedy local part, the domain backing off to its last dot that is followed by two letters, and the leftmost start.
- `Text` and `Request`: Python string and dictionary primitives (`strip`, `split`, `join`, `dict.get`, truthiness, `or`).
- `Utils`: the request utilities of `myapp/utils.py`.
- `Honeypot`: `HoneypotView` (`_log_event`, `get`, `post`) of `myapp/views.py`.
- `Buckets`: the scan/spam/attack filters of `AggregatePathListViewSet`.
- `Serializers`: the user-agent snapshot of `BotEventListSerializer`.

Oracles are parameters:

- `Honeypot.Detectors` holds `extract_attacks` and `extract_meta_data`. Both are imported by the view, but their bodies are not part of this model.
- `Patterns.RegexEngine` evaluates the backtracking patterns.
- `Honeypot.Get` takes the fresh UUID as its `issued` argument.

Where the code and the repository's own tests disagree, the model follows the code:

- `extract_email_from_payload` (`myapp/utils.py:24-36`) searches only `email`, `email_submitted` and `contact_email`, then `raw_body`. The test at `myapp/tests/test_utils.py:40-46` expects addresses in the `message` and `comment` fields to be found as well. `Utils.MessageFieldIgnored` states what the code does.

A consequence of the code worth knowing: every POST stores its body. The aggregation filters therefore count an unflagged POST as spam, even when its body holds only the correlation token (`Buckets.PostIsCounted`).

## Model

| member | source | states |
|---|---|---|
| Enums.ParseCategory | myapp/enums.py:4-11 | reading a stored category label back gives the category whose `.value` it is |
| Enums.ValueInjective | myapp/enums.py:4-11 | distinct categories are stored under distinct labels |
| Patterns.NamesDistinct | myapp/patterns.py:12-177 | the catalog has exactly 34 entries and no two share a pattern name |
| Patterns.TextInverse | myapp/patterns.py:12-177 | each pattern name string identifies its signature: reading the name back gives the same entry |
| Patterns.CatalogOrdinals | myapp/patterns.py:12-177 | the entry at position i is the i-th signature of the source list |
| Patterns.CategoryLayout | myapp/patterns.py:13-176 | positions 0-9 are XSS, 10-15 SQLI, 16-20 LFI, 21-25 CMD, 26-28 TRAVERSAL and 29-33 SSTI; no entry is filed under OTHER |
| Patterns.RankSortedIsGrouped | myapp/patterns.py:13-176 | any signature list whose categories never step back in the order XSS…SSTI keeps each category contiguous |
| Patterns.CatalogGrouped | myapp/patterns.py:13-176 | the catalog's categories form contiguous groups: no entry of another category sits between two entries of one category |
| Patterns.SignatureSearch | myapp/patterns.py:12-177 | `re.search` of one catalog entry: a literal alternation matches iff one of its alternatives occurs ignoring case, and the match folds to an alternative; an anchored one matches iff an alternative starts the value, and the match is a prefix of it; every other pattern gives what the regex engine gives for its source text and DOTALL flag |
| Patterns.FileWrapperMatches | myapp/patterns.py:104-108 | the alternation of `file://` and `file:///` gives the same result as `file://` alone, so it matches iff the value contains `file://` in any case |
| Patterns.WindowsPathMatches | myapp/patterns.py:94-98 | `windows_path` matches iff the value contains `..\..\` or `../../`, ignoring case |
| Patterns.WindowsPathIsDotDotSlash | myapp/patterns.py:94-140 | `windows_path` and `dot_dot_slash` return the same match on every value: the two alternatives cannot start at one position, so their order does not matter |
| Patterns.TemplateTwins | myapp/patterns.py:152-176 | `jinja2_template` and `twig_template` give the same result on every value, whatever the regex engine |
| Patterns.AbsolutePathMatches | myapp/patterns.py:141-145 | `absolute_path` matches iff the value starts with `/` and one of the seven directory names, ignoring case; the match is that prefix and nothing is required after it |
| Patterns.EncodedTraversalMatches | myapp/patterns.py:146-150 | `encoded_traversal` matches iff the value contains `..%2f`, `..%5c`, `%2e%2e%2f` or `%2e%2e%5c`, ignoring case |
| Patterns.InformationSchemaMatches | myapp/patterns.py:78-82 | `information_schema` matches iff the value contains `information_schema`, `sys.` or `mysql.`, ignoring case |
| Patterns.PhpWrapperMatches | myapp/patterns.py:99-103 | `php_wrapper` matches iff the value contains `php://` followed by filter, input, expect or data, ignoring case |
| Literals.Search | myapp/patterns.py:78-150 | `re.search` of a literal alternation: a match exists iff some alternative occurs ignoring case; the matched text occurs in the value and folds to an alternative |
| Literals.Locate | myapp/patterns.py:78-150 | the match starts at the leftmost position where any alternative matches |
| Literals.RedundantExtension | myapp/patterns.py:104-108 | appending an alternative that extends an earlier one never changes the search result |
| Literals.SwapExclusive | myapp/patterns.py:94-140 | two alternatives that never start at the same position can be listed in either order |
| Scanner.SweepMembers | myapp/patterns.py:12-177 | a finding is in the full sweep iff some catalog entry matched the value and produced it |
| Scanner.Sweep | myapp/patterns.py:12-177 | one value against a list of signatures: at most one finding per signature, in list order (membership in `Scanner.SweepMembers`) |
| Scanner.SweepAppend | myapp/patterns.py:12-177 | the sweep keeps catalog order: findings of earlier entries come before those of later ones |
| Scanner.DoubleDotsHitTwice | myapp/patterns.py:94-140 | a value containing `../../` or `..\..\` yields an LFI finding from `windows_path` and a TRAVERSAL finding from `dot_dot_slash`, with the same matched text |
| Scanner.EtcPasswdProbe | myapp/patterns.py:94-140 | `../../../etc/passwd` is reported both as LFI and as TRAVERSAL |
| Request.Lookup | myapp/utils.py:26 | `payload.get(key)` is None iff the key is absent, and otherwise the value stored under it |
| Request.MetaGet | myapp/utils.py:49 | `meta.get(key)`: present iff the key is in the map, and then its value |
| Request.Truthy | myapp/utils.py:26 | Python truthiness of an optional string: present and not empty |
| Request.Or | myapp/utils.py:55 | `a or b`: `a` when it is truthy, otherwise `b` |
| Text.Strip | myapp/utils.py:13 | `str.strip`: the result is a slice of the input with only whitespace cut off either end, and it has no outer whitespace |
| Text.IsSpace | myapp/utils.py:13 | the characters for which `str.isspace()` holds: ASCII tab to carriage return, space, the separators U+001C-U+001F, NEL, no-break space and the Unicode space separators |
| Text.Split | myapp/utils.py:52 | `s.split(sep)` for a one-character separator: at least one piece, no piece holds the separator, and the first piece is the text up to the first separator (inverse of `Join` in `Text.JoinSplit`) |
| Text.LowerStr | myapp/utils.py:29 | `.lower()` on ASCII: same length, and each character lower-cased on its own |
| Text.JoinSplit | myapp/utils.py:52 | joining the pieces of `split(',')` with commas gives the header back |
| Text.SplitJoin | myapp/utils.py:52 | splitting a join of comma-free pieces gives the pieces back |
| Email.MatchAt | myapp/utils.py:6 | the regex tried at one start position (greedy local part up to `@`, a domain run backing off to its last dot followed by two letters, then every letter after it): a match is at least six characters long, ends inside the text, and starts with a local-part character; `Email.MatchAtSound` gives its shape |
| Email.MatchAtSound | myapp/utils.py:6 | what the regex matches at a start position is a whole email-shaped substring: local part, `@`, domain, `.`, two or more letters |
| Email.MatchAtComplete | myapp/utils.py:6 | wherever an email-shaped substring starts, the regex matches at that position |
| Email.MatchAtLongest | myapp/utils.py:6 | the greedy match at a start is the longest: no email-shaped substring from that start runs past its end |
| Email.Search | myapp/utils.py:6 | `EMAIL_REGEX.search`: the match is the leftmost-longest email-shaped substring (none starts earlier, none from its start is longer); there is none iff no substring is email-shaped |
| Email.SearchIsLeftmostLongest | myapp/utils.py:6 | conversely, any leftmost-longest email-shaped substring is exactly what the search returns |
| Email.LowerKeepsShape | myapp/utils.py:29 | lower-casing a match keeps it email-shaped |
| Email.ShapeEnds | myapp/utils.py:6 | an email-shaped string holds `@` and ends in `.` followed by at least two letters |
| Utils.HtmlEscape | myapp/utils.py:13 | `html.escape` output holds none of `<`, `>`, `"`, `'`, and every `&` in it begins one of the five entities |
| Utils.EscapeRoundTrip | myapp/utils.py:13 | unescaping the five entities gives the original text back, so escaping loses nothing |
| Utils.SanitizeText | myapp/utils.py:9-13 | `''` for None; otherwise free of markup characters and of bare `&`, and decoding to the whitespace-stripped input |
| Utils.ChainEntries | myapp/utils.py:51-52 | the proxy chain's entries are comma-free and join back to the header; a missing or empty header has none |
| Utils.FirstNonBlank | myapp/utils.py:52-54 | `""` iff every entry is blank; otherwise the stripped first entry that is not blank |
| Utils.GetClientIp | myapp/utils.py:48-56 | the second component is X-Forwarded-For when non-empty, else Forwarded-For, unchanged; the IP is the first non-blank stripped chain entry, else `REMOTE_ADDR`, else `''` |
| Utils.ChainIpIsOneEntry | myapp/utils.py:52-54 | an IP taken from the chain is non-empty, holds no comma and has no outer whitespace |
| Utils.ForwardedHeaderWins | myapp/utils.py:49 | when X-Forwarded-For is non-empty, the legacy Forwarded-For header cannot change the result |
| Utils.HeadOfChain | myapp/utils.py:49-54 | a non-blank first chain entry is the client, whatever follows the first comma |
| Utils.ProxyChainExample | myapp/utils.py:48-56 | `"203.0.113.1, 198.51.100.2"` resolves to `"203.0.113.1"`, with the header returned verbatim |
| Utils.DirectClient | myapp/utils.py:55-56 | without proxy headers the IP is `REMOTE_ADDR`, or `''` when that is missing too, and the second component is None |
| Utils.EmailIn | myapp/utils.py:26-29 | a field yields an address iff it is non-empty and some substring of it is email-shaped; the address is the lower-cased leftmost-longest such substring |
| Utils.FirstSome | myapp/utils.py:25-35 | the result is the first present candidate, with every earlier one absent; None iff every candidate is None |
| Utils.ExtractEmail | myapp/utils.py:24-36 | None iff none of `email`, `email_submitted`, `contact_email`, `raw_body` yields an address; otherwise the address of the first of them, in that order, that yields one |
| Utils.EmailFallbackOrder | myapp/utils.py:25-35 | a field's address is returned exactly when every earlier field in the search order yields none |
| Utils.UnsearchedPayload | myapp/utils.py:24-36 | a payload lacking all four searched fields yields None, whatever else it holds |
| Utils.MessageFieldIgnored | myapp/utils.py:24-36 | an address in a `message` field is never found |
| Utils.BuildGeo | myapp/utils.py:59-67 | None iff country and city are both missing or empty; country comes from CF-IPCountry, else App Engine's header; city is present only when non-empty |
| Utils.CollectHeaders | myapp/utils.py:39-45 | the result has exactly the keys starting with `HTTP_`, plus `CONTENT_TYPE` and `CONTENT_LENGTH`, with their values unchanged |
| Utils.HasHoneypotHit | myapp/utils.py:70-71 | true iff `middle_name` or `company` holds a non-empty value |
| Utils.HoneypotIgnoresOtherFields | myapp/utils.py:70-71 | adding any other field never changes the verdict |
| Utils.HistogramAdd | myapp/utils.py:78 | counting one more occurrence of a tag keeps the counts equal to the occurrence counts |
| Utils.CountTags | myapp/utils.py:77-78 | after one submission's tags, every tag seen so far maps to its number of occurrences, and no other key exists |
| Utils.SummarizeTags | myapp/utils.py:74-79 | each tag maps to its total number of occurrences across all submissions; only tags that occur are keys |
| Utils.UntaggedContributesNothing | myapp/utils.py:77 | a submission whose tags are missing or empty adds nothing |
| Honeypot.RecordOf | myapp/views.py:276-283 | a record copies the field key, pattern name and matched text, and stores the category's label |
| Honeypot.FieldRecords | myapp/views.py:275-283 | one record per finding of a field, in the detector's order |
| Honeypot.LogEvent | myapp/views.py:249-289 | the event stores the method, path, field map, token, client metadata and extracted email; its attack flag is raised iff some field produced a finding |
| Honeypot.AppendRecords | myapp/views.py:275-283 | the inner loop appends exactly one field's records, in order |
| Honeypot.DetectAttacks | myapp/views.py:271-284 | the loop over the fields creates exactly the records `LogEvent` stores, and notes a finding iff some field produced one |
| Honeypot.RecordCount | myapp/views.py:272-283 | the number of records equals the total length of the detector's results over all fields |
| Honeypot.RecordMembership | myapp/views.py:272-283 | a record is stored iff it is some field's finding tagged with that field's key |
| Honeypot.FindingCountPositive | myapp/views.py:271-289 | the total finding count is positive iff some field produced a finding |
| Honeypot.AttackFlagMatchesRecords | myapp/views.py:271-289 | the stored attack flag is raised iff at least one attack record was created |
| Honeypot.QuietDetector | myapp/views.py:286-289 | a detector that finds nothing leaves the event unflagged and without records |
| Honeypot.UuidText | myapp/views.py:293 | the token's text is the 36-character 8-4-4-4-12 form, with the 32 digits in order between the dashes, and holds no quote |
| Honeypot.UuidTextInjective | myapp/views.py:293 | distinct tokens have distinct texts |
| Honeypot.FillRoundTrip | myapp/views.py:297-312 | a quote-free value placed in an attribute reads back unchanged up to the closing quote |
| Honeypot.PageRoundTrip | myapp/views.py:301 | the hidden `ctoken` input of the decoy page reads back as the embedded token |
| Honeypot.Get | myapp/views.py:291-314 | one token is issued: the event stores it, and the 200 HTML page carries the same value in its hidden input |
| Honeypot.Post | myapp/views.py:319-324 | for a map-shaped body: the token is the body's `ctoken` (None when absent, otherwise unchecked); the body map is stored; the answer is `{"status": "ok"}` with 200 |
| Honeypot.PostAlwaysAcknowledges | myapp/views.py:324 | for map-shaped bodies, the POST answer depends neither on the request nor on what was detected |
| Honeypot.CorrelationRoundTrip | myapp/views.py:293-322 | a POST that returns the decoy page's hidden token carries the GET event's token |
| Honeypot.TokenFieldIsScanned | myapp/views.py:272-283 | the `ctoken` field is scanned like any other field: its findings become records keyed `ctoken` |
| Buckets.BucketOf | myapp/views.py:150-168 | an event is a scan, spam or an attack exactly when it passes that filter |
| Buckets.InScan | myapp/views.py:151-159 | the scan filter: not an attack, a GET, and data null or the empty map |
| Buckets.InSpam | myapp/views.py:160-167 | the spam filter: not an attack, a POST, and data not null |
| Buckets.InAttack | myapp/views.py:168 | the attack filter: the event's attack flag is set |
| Buckets.BucketsDisjoint | myapp/views.py:150-168 | no event passes two of the three filters |
| Buckets.ParameterisedGetUncounted | myapp/views.py:151-158 | an unflagged GET with non-empty data falls in no bucket |
| Buckets.CountsFor | myapp/views.py:147-168 | per path, scans + spam + attacks never exceed the traffic count, which never exceeds the number of events |
| Buckets.CountsAppend | myapp/views.py:147-168 | the counts of a concatenated event log are the sums of the counts of its parts |
| Buckets.OtherPathsIgnored | myapp/views.py:147-150 | events on other paths contribute nothing to a path's counts |
| Buckets.EmptyGetIsScan | myapp/views.py:151-158 | a logged GET without query parameters is counted as a scan |
| Buckets.PostIsCounted | myapp/views.py:160-168 | a logged POST is always spam or an attack, never a scan |
| Buckets.LoggedScanHasEmptyQuery | myapp/views.py:151-158 | a logged GET counts as a scan only if its query map was empty |
| Serializers.AgentSnapshot | myapp/serializers.py:229-233 | None iff the agent is missing or empty; otherwise a space-free prefix of the agent that ends where the agent ends or just before its first space |
| Serializers.SpacelessAgent | myapp/serializers.py:232 | an agent without spaces is its own snapshot |
| Serializers.LeadingSpaceAgent | myapp/serializers.py:232 | an agent opening with a space has the empty snapshot |
| Serializers.SnapshotIsFirstToken | myapp/serializers.py:232 | the snapshot of `head + " " + rest` is `head` when `head` has no space |

## Left out

- `extract_attacks` and `extract_meta_data` are not part of this model. They are imported at `myapp/views.py:13`, and they enter as the function fields of `Honeypot.Detectors`. `Scanner.Sweep` shows the shape a full sweep over the catalog has, but the view is not tied to it.
- Regex semantics of the backtracking patterns (`script_tag`, `event_handler`, `sql_comment`, the template and subshell patterns, the `\b` patterns, …) are left to the `Patterns.RegexEngine` parameter. Only the literal alternations are matched concretely.
- Case folding is ASCII only. Python's Unicode `IGNORECASE` foldings, such as the Kelvin sign or the long s, are not modelled.
- UUID generation is a parameter. `Honeypot.Uuid` is any 32 hexadecimal digits, so the version and variant bits of `uuid4` are not constrained.
- Storage is left out:
  - `BotEvent.objects.create`, the later `save(update_fields=…)`, and `AttackType.objects.create` are not modelled. `Honeypot.LogEvent` gives the state both writes leave behind.
  - A posted `ctoken` that is not a UUID is not modelled as an error. `UUIDField.to_python` would raise a `ValidationError` while `objects.create` prepares the value, before any query is sent, so no event is stored.
  - `objects.create` runs no field validators, so `EmailField` puts no check on the stored address; the model has none either.
- Of the aggregation, only the traffic, scan, spam and attack counts are modelled. `created_at` (Max), the `most_popular_attack` subquery, pagination, search, ordering, and `SnapShotView` and `BotEventViewSet` are database queries.
- Request.Lookup: for a key repeated in a query string or form body, Django's `QueryDict.get` and `items()` use the key's last value, once per key. The model reads the first pair and scans every pair. The two agree whenever keys are distinct, as in a JSON body.
- Utils.ExtractEmail: `raw_body` is searched at `myapp/utils.py:33` without `str()`. A JSON object body whose `raw_body` is truthy but not a string (a number, a list, an object, `true`), and whose three address fields yield nothing, makes `EMAIL_REGEX.search` raise `TypeError`. That happens inside `_log_event` (`myapp/views.py:253`), before `BotEvent.objects.create` (`myapp/views.py:256`), so the request ends in a server error and nothing is stored. The model's values are strings, so this path is not modelled, and `Honeypot.Post` and `Honeypot.PostAlwaysAcknowledges` promise their answer only for bodies whose `raw_body`, when reached, is a string.
- Values are modelled as strings only. Python's `str(value)` of non-string JSON values is not modelled. This affects `sanitize_text`, the `str(payload[key])` of e-mail extraction, and `str(value)` in `collect_headers`. The one place where a non-string value raises instead, `raw_body`, is the `Utils.ExtractEmail` line above.
- `sanitize_body` is not modelled. Its UTF-8 decoding of bytes with replacement is byte-level I/O, and its string path is `Utils.SanitizeText`.
- Honeypot.Post: only map-shaped bodies (form data or a JSON object) are modelled, because `Incoming.body` is a `Params` list of pairs. A JSON body that is a list, a number, a string or `null` makes `request.data.get("ctoken")` raise `AttributeError` at `myapp/views.py:320`. The request then ends in a server error before `_log_event` runs, so nothing is stored. `Honeypot.Post` and `Honeypot.PostAlwaysAcknowledges` therefore promise the `{"status": "ok"}` answer only for map-shaped bodies.
- Honeypot.Get: the model returns the page text as the response body. The view hands that string to Django REST framework's `Response` (`myapp/views.py:314`). The renderer that DRF's content negotiation picks may serialise the string instead of sending it verbatim; the JSON renderer, for one, would quote and escape it. Rendering and content negotiation are not modelled, and `content_type="text/html"` is represented only by the `Html` constructor.
- The services, admin, URL and router modules are not modelled. They refer to names that do not exist in the models and views. The same goes for the commented-out filters, the management commands, throttles, and the fields `event_category`, `field_count`, `target_fields` and `data_present` that the serializers mention but the model class does not define.

=== FILE: buckets.dfy ===
/**
 * The traffic buckets of the per-path aggregate: every stored event is a
 * scan (an unflagged GET without data), spam (an unflagged POST with data),
 * an attack (flagged), or none of these.
 */
module Buckets {
  import opened Wrappers
  import opened Enums
  import opened Request
  import opened Honeypot

  /** The scan filter: not an attack, a GET, and data null or the empty map. */
  predicate InScan(e: Event) {
    !e.attackAttempted && e.httpMethod == GET && (e.data.None? || e.data == Some([]))
  }

  /** The spam filter: not an attack, a POST, and data not null. */
  predicate InSpam(e: Event) {
    !e.attackAttempted && e.httpMethod == POST && e.data.Some?
  }

  /** The attack filter: the event's attack flag. */
  predicate InAttack(e: Event) {
    e.attackAttempted
  }

  /** Where an event is counted. */
  datatype Bucket = Scan | Spam | Attack | Uncounted

  /** The one bucket an event lands in. */
  function BucketOf(e: Event): (b: Bucket)
    ensures b == Scan <==> InScan(e)
    ensures b == Spam <==> InSpam(e)
    ensures b == Attack <==> InAttack(e)
  {
    if e.attackAttempted then Attack
    else if e.httpMethod == POST then (if e.data.Some? then Spam else Uncounted)
    else if e.data.None? || e.data == Some([]) then Scan
    else Uncounted
  }

  /** No event satisfies two of the filters. */
  lemma BucketsDisjoint(e: Event)
    ensures !(InScan(e) && InSpam(e)) && !(InScan(e) && InAttack(e)) && !(InSpam(e) && InAttack(e))
  {
    var _ := BucketOf(e);
  }

  /** An unflagged GET that carried parameters is in none of the buckets. */
  lemma ParameterisedGetUncounted(e: Event)
    requires !e.attackAttempted && e.httpMethod == GET && e.data.Some? && e.data.value != []
    ensures BucketOf(e) == Uncounted
  {
  }

  /** Per-path counts: all events on the path, and those in each bucket. */
  datatype PathCounts = PathCounts(traffic: nat, scan: nat, spam: nat, attack: nat)

  /** The aggregate row for `path` over `events`. */
  function CountsFor(events: seq<Event>, path: string): (c: PathCounts)
    ensures c.scan + c.spam + c.attack <= c.traffic <= |events|
  {
    if events == [] then PathCounts(0, 0, 0, 0)
    else
      var c := CountsFor(events[1..], path);
      var e := events[0];
      if e.requestPath != path then c
      else
        var b := BucketOf(e);
        PathCounts(c.traffic + 1,
                   c.scan + (if b == Scan then 1 else 0),
                   c.spam + (if b == Spam then 1 else 0),
                   c.attack + (if b == Attack then 1 else 0))
  }

  /** Adding up the rows of two event logs. */
  function Plus(a: PathCounts, b: PathCounts): PathCounts {
    PathCounts(a.traffic + b.traffic, a.scan + b.scan, a.spam + b.spam, a.attack + b.attack)
  }

  /** The aggregate of a concatenated log is the sum of the aggregates of its parts. */
  lemma {:induction false} CountsAppend(a: seq<Event>, b: seq<Event>, path: string)
    ensures CountsFor(a + b, path) == Plus(CountsFor(a, path), CountsFor(b, path))
    decreases |a|
  {
    if a != [] {
      assert (a + b)[1..] == a[1..] + b;
      CountsAppend(a[1..], b, path);
    } else {
      assert a + b == b;
    }
  }

  /** Events on other paths do not show up in a path's row. */
  lemma {:induction false} OtherPathsIgnored(events: seq<Event>, path: string)
    requires forall i :: 0 <= i < |events| ==> events[i].requestPath != path
    ensures CountsFor(events, path) == PathCounts(0, 0, 0, 0)
    decreases |events|
  {
    if events != [] {
      OtherPathsIgnored(events[1..], path);
    }
  }

  /** A logged GET without query parameters is a scan unless flagged, which it cannot be. */
  lemma EmptyGetIsScan(d: Detectors, req: Incoming, issued: Uuid)
    requires req.query == []
    ensures InScan(Get(d, req, issued).0.event)
  {
  }

  /** A logged POST is always counted: as spam when unflagged, as an attack otherwise. */
  lemma PostIsCounted(d: Detectors, req: Incoming)
    ensures BucketOf(Post(d, req).0.event) in {Spam, Attack}
  {
  }

  /** Logged events always store their field map, so scans come only from empty query maps. */
  lemma LoggedScanHasEmptyQuery(d: Detectors, req: Incoming, issued: Uuid)
    requires InScan(Get(d, req, issued).0.event)
    ensures req.query == []
  {
  }
}

=== FILE: email.dfy ===
/**
 * `EMAIL_REGEX.search(text)` for the pattern
 * `([A-Z0-9._%+-]+@[A-Z0-9.-]+\.[A-Z]{2,})` compiled with IGNORECASE
 * (ASCII letters only). The search tries start positions from the left; at
 * a start the greedy local part must be followed by `@`; the greedy domain
 * part then backs off to the LAST `.` that is followed by two letters, and
 * the top-level domain takes every letter after that dot.
 */
module Email {
  import opened Wrappers
  import opened Text

  predicate IsAsciiLetter(c: char) {
    'a' <= c <= 'z' || 'A' <= c <= 'Z'
  }

  predicate IsDigit(c: char) {
    '0' <= c <= '9'
  }

  /** `[A-Z0-9._%+-]` under IGNORECASE. */
  predicate IsLocalChar(c: char) {
    IsAsciiLetter(c) || IsDigit(c) || c == '.' || c == '_' || c == '%' || c == '+' || c == '-'
  }

  /** `[A-Z0-9.-]` under IGNORECASE. */
  predicate IsDomainChar(c: char) {
    IsAsciiLetter(c) || IsDigit(c) || c == '.' || c == '-'
  }

  predicate AllLocal(s: string) {
    forall i :: 0 <= i < |s| ==> IsLocalChar(s[i])
  }

  predicate AllDomain(s: string) {
    forall i :: 0 <= i < |s| ==> IsDomainChar(s[i])
  }

  predicate AllLetters(s: string) {
    forall i :: 0 <= i < |s| ==> IsAsciiLetter(s[i])
  }

  /**
   * `w` reads local-part `@` domain `.` top-level-domain, with the `@` at `at`
   * and that last `.` at `dot`: a non-empty local part, a non-empty domain and
   * at least two letters after the dot.
   */
  predicate ShapedAt(w: string, at: nat, dot: nat) {
    && 0 < at && at + 1 < dot && dot + 2 < |w|
    && AllLocal(w[..at]) && w[at] == '@'
    && AllDomain(w[at + 1..dot]) && w[dot] == '.'
    && AllLetters(w[dot + 1..])
  }

  /** `w` is a whole match of the email pattern. */
  predicate Shaped(w: string) {
    exists at: nat, dot: nat | at < dot < |w| :: ShapedAt(w, at, dot)
  }

  /** The end of the run of `p`-characters that starts at `i`. */
  function RunEnd(s: string, i: nat, p: char -> bool): (j: nat)
    requires i <= |s|
    ensures i <= j <= |s|
    ensures forall k :: i <= k < j ==> p(s[k])
    ensures j == |s| || !p(s[j])
    decreases |s| - i
  {
    if i < |s| && p(s[i]) then RunEnd(s, i + 1, p) else i
  }

  /** A `.` at `k` the domain part may stop before: inside the domain run `[d0, e)`, followed by two letters. */
  predicate DotCandidate(s: string, d0: nat, e: nat, k: nat) {
    d0 < k < e && k + 2 < |s| && s[k] == '.' && IsAsciiLetter(s[k + 1]) && IsAsciiLetter(s[k + 2])
  }

  /** Backtracking from the end of the domain run: the last candidate dot at or before `k`. */
  function LastDot(s: string, d0: nat, e: nat, k: int): (r: Option<nat>)
    ensures r.Some? ==> r.value <= k && DotCandidate(s, d0, e, r.value)
    ensures r.Some? ==> forall m: nat :: r.value < m <= k ==> !DotCandidate(s, d0, e, m)
    ensures r.None? ==> forall m: nat :: m <= k ==> !DotCandidate(s, d0, e, m)
    decreases k
  {
    if k <= d0 then None
    else if DotCandidate(s, d0, e, k) then Some(k)
    else LastDot(s, d0, e, k - 1)
  }

  /** The end of the match that starts at `i`, if the pattern matches there. */
  function MatchAt(s: string, i: nat): (r: Option<nat>)
    ensures r.Some? ==> i + 5 < r.value <= |s|
    ensures r.Some? ==> IsLocalChar(s[i])
  {
    if i >= |s| || !IsLocalChar(s[i]) then None
    else
      var at := RunEnd(s, i, IsLocalChar);
      if at == |s| || s[at] != '@' then None
      else
        var e := RunEnd(s, at + 1, IsDomainChar);
        match LastDot(s, at + 1, e, e - 1)
        case None => None
        case Some(k) => Some(RunEnd(s, k + 1, IsAsciiLetter))
  }

  /** What `MatchAt` finds is a whole email-shaped substring. */
  lemma MatchAtSound(s: string, i: nat)
    requires MatchAt(s, i).Some?
    ensures i < MatchAt(s, i).value <= |s| && Shaped(s[i..MatchAt(s, i).value])
  {
    var at := RunEnd(s, i, IsLocalChar);
    var e := RunEnd(s, at + 1, IsDomainChar);
    var k := LastDot(s, at + 1, e, e - 1).value;
    var t := RunEnd(s, k + 1, IsAsciiLetter);
    assert t >= k + 3;
    PartsShaped(s, i, at, k, t);
  }

  /** Local characters, `@`, domain characters, `.` and two or more letters make `s[i..t]` email-shaped. */
  lemma PartsShaped(s: string, i: nat, at: nat, dot: nat, t: nat)
    requires i < at && at + 1 < dot && dot + 2 < t <= |s|
    requires forall k :: i <= k < at ==> IsLocalChar(s[k])
    requires s[at] == '@'
    requires forall k :: at + 1 <= k < dot ==> IsDomainChar(s[k])
    requires s[dot] == '.'
    requires forall k :: dot + 1 <= k < t ==> IsAsciiLetter(s[k])
    ensures ShapedAt(s[i..t], at - i, dot - i)
  {
    var w := s[i..t];
    var local, domain, tld := w[..at - i], w[at + 1 - i..dot - i], w[dot + 1 - i..];
    forall k | 0 <= k < |local| ensures IsLocalChar(local[k]) {
      assert local[k] == s[i + k];
    }
    forall k | 0 <= k < |domain| ensures IsDomainChar(domain[k]) {
      assert domain[k] == s[at + 1 + k];
    }
    forall k | 0 <= k < |tld| ensures IsAsciiLetter(tld[k]) {
      assert tld[k] == s[dot + 1 + k];
    }
  }

  /** The parts of an email-shaped substring `s[i..j]`, read off in `s` itself. */
  lemma ShapedParts(s: string, i: nat, j: nat, a: nat, d: nat)
    requires i <= j <= |s| && a < d < j - i && ShapedAt(s[i..j], a, d)
    ensures 0 < a && a + 1 < d && i + d + 2 < j
    ensures forall k :: i <= k < i + a ==> IsLocalChar(s[k])
    ensures s[i + a] == '@'
    ensures forall k :: i + a + 1 <= k < i + d ==> IsDomainChar(s[k])
    ensures s[i + d] == '.' && IsAsciiLetter(s[i + d + 1]) && IsAsciiLetter(s[i + d + 2])
    ensures forall k :: i + d + 1 <= k < j ==> IsAsciiLetter(s[k])
  {
    var w := s[i..j];
    forall k | i <= k < i + a ensures IsLocalChar(s[k]) {
      assert s[k] == w[..a][k - i];
    }
    forall k | i + a + 1 <= k < i + d ensures IsDomainChar(s[k]) {
      assert s[k] == w[a + 1..d][k - i - a - 1];
    }
    forall k | i + d + 1 <= k < j ensures IsAsciiLetter(s[k]) {
      assert s[k] == w[d + 1..][k - i - d - 1];
    }
  }

  /**
   * The greedy match is the longest: no email-shaped substring that starts
   * where `MatchAt` matched runs past the end it reports.
   */
  lemma MatchAtLongest(s: string, i: nat, j: nat)
    requires i <= j <= |s| && Shaped(s[i..j])
    ensures MatchAt(s, i).Some? && j <= MatchAt(s, i).value
  {
    var a: nat, d: nat :| a < d < j - i && ShapedAt(s[i..j], a, d);
    ShapedParts(s, i, j, a, d);
    PartsLongest(s, i, i + a, i + d, j);
  }

  /** `MatchAtLongest` on the parts of the shaped substring, read off in `s`. */
  lemma PartsLongest(s: string, i: nat, at: nat, dot: nat, j: nat)
    requires i < at && at + 1 < dot && dot + 2 < j <= |s|
    requires forall k :: i <= k < at ==> IsLocalChar(s[k])
    requires s[at] == '@'
    requires forall k :: at + 1 <= k < dot ==> IsDomainChar(s[k])
    requires s[dot] == '.'
    requires forall k :: dot + 1 <= k < j ==> IsAsciiLetter(s[k])
    ensures MatchAt(s, i).Some? && j <= MatchAt(s, i).value
  {
    // The local run stops exactly at the `@`, and the domain run passes the dot.
    assert RunEnd(s, i, IsLocalChar) == at;
    var e := RunEnd(s, at + 1, IsDomainChar);
    assert e > dot;
    assert DotCandidate(s, at + 1, e, dot);
    // Backtracking stops at a dot no earlier than this one; the letters after
    // it run to `j` at least, and a later dot cannot sit among them.
    var k := LastDot(s, at + 1, e, e - 1).value;
    assert dot <= k;
  }

  /** Wherever an email-shaped substring starts, `MatchAt` finds a match. */
  lemma MatchAtComplete(s: string, i: nat, j: nat)
    requires i <= j <= |s| && Shaped(s[i..j])
    ensures MatchAt(s, i).Some?
  {
    MatchAtLongest(s, i, j);
  }

  /**
   * Try start positions `i`, `i + 1`, ..., `n` in turn with the matcher `m`:
   * the first that matches wins.
   */
  function FirstStart(m: nat -> Option<nat>, n: nat, i: nat): (r: Option<(nat, nat)>)
    requires i <= n
    ensures r.Some? ==> i <= r.value.0 <= n && m(r.value.0) == Some(r.value.1)
    ensures r.Some? ==> forall k :: i <= k < r.value.0 ==> m(k).None?
    ensures r.None? ==> forall k :: i <= k <= n ==> m(k).None?
    decreases n - i
  {
    match m(i)
    case Some(t) => Some((i, t))
    case None => if i == n then None else FirstStart(m, n, i + 1)
  }

  /** Some substring of `text` is email-shaped. */
  ghost predicate HasAddress(text: string) {
    exists i, j | 0 <= i <= j <= |text| :: Shaped(text[i..j])
  }

  /**
   * `w` is the email-shaped substring at `p` that a leftmost, greedy search
   * reports: no shaped substring starts before `p`, and none that starts at
   * `p` is longer.
   */
  ghost predicate LeftmostLongest(text: string, p: nat, w: string) {
    && OccursAt(text, p, w) && Shaped(w)
    && (forall k, j | 0 <= k < p && k <= j <= |text| :: !Shaped(text[k..j]))
    && (forall j | p + |w| < j <= |text| :: !Shaped(text[p..j]))
  }

  /** At most one substring is leftmost-longest. */
  lemma LeftmostLongestUnique(text: string, p: nat, w: string, q: nat, v: string)
    requires LeftmostLongest(text, p, w) && LeftmostLongest(text, q, v)
    ensures p == q && w == v
  {
  }

  /**
   * `EMAIL_REGEX.search(text)`, returning `group(1)`: the leftmost-longest
   * email-shaped substring, and none exactly when no substring is
   * email-shaped.
   */
  function Search(text: string): (r: Option<string>)
    ensures r.Some? ==> exists p: nat :: LeftmostLongest(text, p, r.value)
    ensures r.None? <==> !HasAddress(text)
  {
    var m: nat -> Option<nat> := k => MatchAt(text, k);
    match FirstStart(m, |text|, 0)
    case None =>
      NoMatchNoAddress(text, m);
      None
    case Some((i, t)) =>
      FirstMatchIsLeftmostLongest(text, m, i, t);
      Some(text[i..t])
  }

  /** Where the regex matches at no start, no substring is email-shaped. */
  lemma NoMatchNoAddress(text: string, m: nat -> Option<nat>)
    requires forall k: nat :: m(k) == MatchAt(text, k)
    requires forall k :: 0 <= k <= |text| ==> m(k).None?
    ensures !HasAddress(text)
  {
    forall i, j | 0 <= i <= j <= |text| ensures !Shaped(text[i..j]) {
      if Shaped(text[i..j]) {
        assert m(i) == MatchAt(text, i);
        MatchAtComplete(text, i, j);
      }
    }
  }

  /** The match at the first start where the regex matches is the leftmost-longest shaped substring. */
  lemma FirstMatchIsLeftmostLongest(text: string, m: nat -> Option<nat>, i: nat, t: nat)
    requires forall k: nat :: m(k) == MatchAt(text, k)
    requires i <= |text| && m(i) == Some(t)
    requires forall k :: 0 <= k < i ==> m(k).None?
    ensures i < t <= |text| && LeftmostLongest(text, i, text[i..t])
  {
    assert MatchAt(text, i) == Some(t);
    MatchAtSound(text, i);
    forall k, j | 0 <= k < i && k <= j <= |text| ensures !Shaped(text[k..j]) {
      if Shaped(text[k..j]) {
        assert m(k) == MatchAt(text, k);
        MatchAtComplete(text, k, j);
      }
    }
    forall j | t < j <= |text| ensures !Shaped(text[i..j]) {
      if Shaped(text[i..j]) {
        MatchAtLongest(text, i, j);
      }
    }
  }

  /**
   * Conversely, the leftmost-longest email-shaped substring is what `Search`
   * reports: the two conditions pin the match down completely.
   */
  lemma SearchIsLeftmostLongest(text: string, p: nat, w: string)
    requires LeftmostLongest(text, p, w)
    ensures Search(text) == Some(w)
  {
    assert Shaped(text[p..p + |w|]);
    assert HasAddress(text);
    var v := Search(text).value;
    var q: nat :| LeftmostLongest(text, q, v);
    LeftmostLongestUnique(text, p, w, q, v);
  }

  /** ASCII lower-casing keeps a string email-shaped. */
  lemma LowerKeepsShape(w: string)
    requires Shaped(w)
    ensures Shaped(LowerStr(w))
  {
    var a: nat, d: nat :| a < d < |w| && ShapedAt(w, a, d);
    assert 0 < a && a + 1 < d && d + 2 < |w|;
    var l := LowerStr(w);
    assert ShapedAt(l, a, d) by {
      forall k | 0 <= k < a ensures IsLocalChar(l[..a][k]) {
        assert w[..a][k] == w[k];
      }
      forall k | a + 1 <= k < d ensures IsDomainChar(l[k]) {
        assert w[a + 1..d][k - a - 1] == w[k];
      }
      forall k | d + 1 <= k < |l| ensures IsAsciiLetter(l[k]) {
        assert w[d + 1..][k - d - 1] == w[k];
      }
    }
  }

  /** An email-shaped string holds an `@` and ends in `.` followed by at least two letters. */
  lemma ShapeEnds(w: string)
    requires Shaped(w)
    ensures '@' in w
    ensures exists dot :: 0 <= dot < |w| - 2 && w[dot] == '.' && AllLetters(w[dot + 1..])
  {
    var a: nat, d: nat :| a < d < |w| && ShapedAt(w, a, d);
    assert 0 < a && a + 1 < d && d + 2 < |w|;
    assert w[a] == '@';
  }
}

=== FILE: enums.dfy ===
/** The closed vocabularies shared by the detection core: attack categories and HTTP methods. */
module Enums {

  /** The attack classes a signature can belong to. */
  datatype AttackCategory = XSS | SQLI | LFI | CMD | TRAVERSAL | SSTI | OTHER {

    /** The string stored in an attack record's `category` column. */
    function Value(): (r: string)
      ensures r != []
    {
      match this
      case XSS => "XSS"
      case SQLI => "SQLI"
      case LFI => "LFI"
      case CMD => "CMD"
      case TRAVERSAL => "TRAVERSAL"
      case SSTI => "SSTI"
      case OTHER => "OTHER"
    }
  }

  /** Reading a stored category string back; the partner of `Value`. */
  function ParseCategory(s: string): (r: AttackCategory)
    requires s in {"XSS", "SQLI", "LFI", "CMD", "TRAVERSAL", "SSTI", "OTHER"}
    ensures r.Value() == s
  {
    if s == "XSS" then XSS
    else if s == "SQLI" then SQLI
    else if s == "LFI" then LFI
    else if s == "CMD" then CMD
    else if s == "TRAVERSAL" then TRAVERSAL
    else if s == "SSTI" then SSTI
    else OTHER
  }

  /** Distinct categories are stored as distinct strings, so the stored value identifies the category. */
  lemma ValueInjective(a: AttackCategory, b: AttackCategory)
    ensures a.Value() == b.Value() ==> a == b
  {
  }

  /** The methods the honeypot logs. */
  datatype Method = GET | POST {

    /** The label stored in an event's `method` column. */
    function Value(): (r: string)
      ensures r != []
    {
      match this
      case GET => "GET"
      case POST => "POST"
    }
  }
}

=== FILE: honeypot.dfy ===
/**
 * The honeypot endpoint. A GET is logged with its query map and answered
 * with a decoy form carrying a fresh correlation token; a POST is logged
 * with its body map, correlated through the `ctoken` field it sends back,
 * and always acknowledged. Every field of the logged map is run through the
 * attack detector; each finding becomes an attack record tied to the event.
 */
module Honeypot {
  import opened Wrappers
  import opened Text
  import opened Enums
  import opened Request
  import opened Scanner
  import Utils

  // ---------------------------------------------------------------------
  // Inputs and records
  // ---------------------------------------------------------------------

  /** What the client-metadata helper reports about a request. */
  datatype ClientMeta = ClientMeta(
    ipAddress: Option<string>,
    geoLocation: Option<string>,
    agent: Option<string>,
    referer: Option<string>,
    lang: Option<string>,
    origin: Option<string>)

  /**
   * The two helpers the view relies on whose bodies are not part of this
   * model: the per-value attack detector and the client-metadata extractor.
   */
  datatype Detectors = Detectors(
    extractAttacks: string -> seq<Finding>,
    extractMeta: Meta -> ClientMeta)

  /** An incoming request: its path, query map, body map and request variables. */
  datatype Incoming = Incoming(path: string, query: Params, body: Params, meta: Meta)

  /** A stored bot event. */
  datatype Event = Event(
    httpMethod: Method,
    client: ClientMeta,
    requestPath: string,
    data: Option<Params>,
    correlationToken: Option<string>,
    email: Option<string>,
    attackAttempted: bool)

  /** A stored attack record: which field, which signature, which category, what matched. */
  datatype AttackRecord = AttackRecord(targetField: string, pattern: string, category: string, rawValue: string)

  /** What one logging call stores: the event and its attack records, in creation order. */
  datatype Logged = Logged(event: Event, attacks: seq<AttackRecord>)

  // ---------------------------------------------------------------------
  // _log_event
  // ---------------------------------------------------------------------

  /** The record one finding in field `key` becomes; the category is stored as its label. */
  function RecordOf(key: string, f: Finding): (r: AttackRecord)
    ensures r.targetField == key && r.pattern == f.pattern && r.rawValue == f.matched
    ensures r.category == f.category.Value() && r.category != []
  {
    AttackRecord(key, f.pattern, f.category.Value(), f.matched)
  }

  /** The records of one field, in the detector's order. */
  function FieldRecords(key: string, findings: seq<Finding>): (r: seq<AttackRecord>)
    ensures |r| == |findings|
    ensures forall j :: 0 <= j < |r| ==> r[j] == RecordOf(key, findings[j])
  {
    seq(|findings|, j requires 0 <= j < |findings| => RecordOf(key, findings[j]))
  }

  /** Every record the fields of `params` produce, field by field. */
  function RecordsOf(d: Detectors, params: Params): (r: seq<AttackRecord>)
  {
    if params == [] then []
    else
      var last := params[|params| - 1];
      RecordsOf(d, params[..|params| - 1]) + FieldRecords(last.0, d.extractAttacks(last.1))
  }

  /** The total number of findings over every field of `params`. */
  function FindingCount(d: Detectors, params: Params): (n: nat)
  {
    if params == [] then 0
    else FindingCount(d, params[..|params| - 1]) + |d.extractAttacks(params[|params| - 1].1)|
  }

  /** Some field's value produced at least one finding. */
  predicate AnyFinding(d: Detectors, params: Params) {
    exists i :: 0 <= i < |params| && |d.extractAttacks(params[i].1)| > 0
  }

  /** The field map a request of this method is logged with. */
  function ParamsOf(req: Incoming, httpMethod: Method): (p: Params)
    ensures httpMethod == GET ==> p == req.query
    ensures httpMethod == POST ==> p == req.body
  {
    if httpMethod == GET then req.query else req.body
  }

  /**
   * `_log_event`: the event as created (attack flag `false`), with the flag
   * raised afterwards when some field produced findings, and one record
   * per finding.
   */
  function LogEvent(d: Detectors, req: Incoming, httpMethod: Method, token: Option<string>): (r: Logged)
    ensures r.event.httpMethod == httpMethod && r.event.requestPath == req.path
    ensures r.event.data == Some(ParamsOf(req, httpMethod))
    ensures r.event.correlationToken == token
    ensures r.event.client == d.extractMeta(req.meta)
    ensures r.event.email == Utils.ExtractEmail(ParamsOf(req, httpMethod))
    ensures r.event.attackAttempted <==> AnyFinding(d, ParamsOf(req, httpMethod))
    ensures r.attacks == RecordsOf(d, ParamsOf(req, httpMethod))
  {
    var params := ParamsOf(req, httpMethod);
    var created := Event(httpMethod, d.extractMeta(req.meta), req.path, Some(params), token,
                         Utils.ExtractEmail(params), false);
    var event := if AnyFinding(d, params) then created.(attackAttempted := true) else created;
    Logged(event, RecordsOf(d, params))
  }

  /**
   * The detection loop of `_log_event`: walk the fields in order, record
   * every finding, and note whether any field produced one.
   */
  method DetectAttacks(d: Detectors, params: Params) returns (records: seq<AttackRecord>, found: bool)
    ensures records == RecordsOf(d, params)
    ensures found <==> AnyFinding(d, params)
  {
    records := [];
    found := false;
    var i := 0;
    while i < |params|
      invariant 0 <= i <= |params|
      invariant records == RecordsOf(d, params[..i])
      invariant found <==> exists k :: 0 <= k < i && |d.extractAttacks(params[k].1)| > 0
    {
      var (key, value) := params[i];
      var attackList := d.extractAttacks(value);
      records := AppendRecords(records, key, attackList);
      if |attackList| > 0 {
        found := true;
      }
      assert params[..i + 1][..i] == params[..i];
      i := i + 1;
    }
    assert params[..i] == params;
  }

  /** Append one record per finding of the field `key`, in the detector's order. */
  method AppendRecords(records: seq<AttackRecord>, key: string, findings: seq<Finding>) returns (out: seq<AttackRecord>)
    ensures out == records + FieldRecords(key, findings)
  {
    out := records;
    var j := 0;
    while j < |findings|
      invariant 0 <= j <= |findings|
      invariant out == records + FieldRecords(key, findings[..j])
    {
      out := out + [RecordOf(key, findings[j])];
      assert findings[..j + 1] == findings[..j] + [findings[j]];
      j := j + 1;
    }
    assert findings[..j] == findings;
  }

  /** One record per finding: the record count is the sum of the detector's list lengths. */
  lemma {:induction false} RecordCount(d: Detectors, params: Params)
    ensures |RecordsOf(d, params)| == FindingCount(d, params)
    decreases |params|
  {
    if params != [] {
      RecordCount(d, params[..|params| - 1]);
    }
  }

  /** The records are exactly the findings of the fields, each tagged with its field's key. */
  lemma {:induction false} RecordMembership(d: Detectors, params: Params, rec: AttackRecord)
    ensures rec in RecordsOf(d, params) <==>
            exists i, j :: (0 <= i < |params| && 0 <= j < |d.extractAttacks(params[i].1)|
                            && rec == RecordOf(params[i].0, d.extractAttacks(params[i].1)[j]))
    decreases |params|
  {
    if params != [] {
      var init := params[..|params| - 1];
      var last := params[|params| - 1];
      RecordMembership(d, init, rec);
      assert forall i :: 0 <= i < |init| ==> init[i] == params[i];
      var tail := FieldRecords(last.0, d.extractAttacks(last.1));
      if rec in tail {
        var j :| 0 <= j < |tail| && tail[j] == rec;
        assert rec == RecordOf(params[|params| - 1].0, d.extractAttacks(params[|params| - 1].1)[j]);
      }
    }
  }

  /** Some field produced findings exactly when the total count is positive. */
  lemma {:induction false} FindingCountPositive(d: Detectors, params: Params)
    ensures FindingCount(d, params) > 0 <==> AnyFinding(d, params)
    decreases |params|
  {
    if params != [] {
      var init := params[..|params| - 1];
      FindingCountPositive(d, init);
      assert forall i :: 0 <= i < |init| ==> init[i] == params[i];
      if AnyFinding(d, init) {
        var i :| 0 <= i < |init| && |d.extractAttacks(init[i].1)| > 0;
        assert |d.extractAttacks(params[i].1)| > 0;
      }
    }
  }

  /** The stored flag is raised exactly when at least one attack record was created. */
  lemma AttackFlagMatchesRecords(d: Detectors, req: Incoming, httpMethod: Method, token: Option<string>)
    ensures LogEvent(d, req, httpMethod, token).event.attackAttempted
            <==> |LogEvent(d, req, httpMethod, token).attacks| > 0
  {
    RecordCount(d, ParamsOf(req, httpMethod));
    FindingCountPositive(d, ParamsOf(req, httpMethod));
  }

  /** A detector that finds nothing leaves the event unflagged and recordless. */
  lemma QuietDetector(d: Detectors, req: Incoming, httpMethod: Method, token: Option<string>)
    requires forall v :: d.extractAttacks(v) == []
    ensures !LogEvent(d, req, httpMethod, token).event.attackAttempted
    ensures LogEvent(d, req, httpMethod, token).attacks == []
  {
    AttackFlagMatchesRecords(d, req, httpMethod, token);
  }

  // ---------------------------------------------------------------------
  // get / post
  // ---------------------------------------------------------------------

  /** A lower-case hexadecimal digit, as the canonical UUID text uses. */
  type HexDigit = c: char | '0' <= c <= '9' || 'a' <= c <= 'f' witness '0'

  /** A UUID's 128 bits as its 32 hexadecimal digits. */
  type Uuid = s: seq<HexDigit> | |s| == 32 witness seq(32, _ => '0')

  /**
   * The canonical 8-4-4-4-12 text of a UUID: its digits in order, with a
   * dash after the 8th, 12th, 16th and 20th.
   */
  function UuidText(u: Uuid): (t: string)
    ensures |t| == 36
    ensures t[8] == '-' && t[13] == '-' && t[18] == '-' && t[23] == '-'
    ensures t[..8] + t[9..13] + t[14..18] + t[19..23] + t[24..] == u
    ensures '"' !in t
  {
    var digits: string := u;
    var t := digits[..8] + "-" + digits[8..12] + "-" + digits[12..16] + "-" + digits[16..20] + "-" + digits[20..];
    assert forall i :: 0 <= i < |t| ==> t[i] == '-' || t[i] in digits;
    assert t[..8] == digits[..8] && t[9..13] == digits[8..12] && t[14..18] == digits[12..16]
        && t[19..23] == digits[16..20] && t[24..] == digits[20..];
    assert digits == digits[..8] + digits[8..12] + digits[12..16] + digits[16..20] + digits[20..];
    t
  }

  /** Different UUIDs have different texts, so the text identifies the token. */
  lemma UuidTextInjective(u: Uuid, v: Uuid)
    requires UuidText(u) == UuidText(v)
    ensures u == v
  {
  }

  /** The decoy page text before the token (ending in the hidden input's `value="`). */
  const PageHead := "\n        <html><body>\n            <h3>Loading...</h3>\n"
                    + "            <form id='hp' method='POST'>\n"
                    + "                <input type=\"hidden\" name=\"ctoken\" value=\""

  /**
   * The decoy page text after the token's closing quote: the visible fields
   * and the auto-submit script.
   */
  const PageTail := ">\n                <input name=\"username\">\n"
                    + "                <input name=\"message\">\n"
                    + "                <input name=\"comment\">\n"
                    + "                <textarea name=\"content\"></textarea>\n"
                    + "                <button type=\"submit\">Submit</button>\n"
                    + "            </form>\n            <script>\n"
                    + "            setTimeout(() => document.getElementById('hp').submit(), 300);\n"
                    + "            </script>\n        </body></html>\n        "

  /** The page `head`, then `token`, a closing quote and `tail`. */
  function Fill(head: string, token: string, tail: string): (page: string)
    ensures head <= page
    ensures page[|head|..] == token + ['"'] + tail
  {
    var page := head + token + ['"'] + tail;
    assert page[..|head|] == head;
    page
  }

  /** The decoy form with `token` in its hidden `ctoken` input. */
  function DecoyPage(token: string): string {
    Fill(PageHead, token, PageTail)
  }

  /** What a client reading `page` finds after `head`: the text up to the closing quote. */
  function ValueAfter(head: string, page: string): (t: Option<string>)
    ensures t.Some? ==> '"' !in t.value
  {
    if head <= page then Some(TakeUntil(page[|head|..], '"')) else None
  }

  /** What a client reading the page finds in the hidden input. */
  function HiddenToken(page: string): Option<string> {
    ValueAfter(PageHead, page)
  }

  /** A value without quotes reads back unchanged from any page filled around it. */
  lemma FillRoundTrip(head: string, token: string, tail: string)
    requires '"' !in token
    ensures ValueAfter(head, Fill(head, token, tail)) == Some(token)
  {
    IndexOfAfterFree(token, '"', tail);
    assert (token + ['"'] + tail)[..|token|] == token;
  }

  /** A token without quotes reads back unchanged from the page built around it. */
  lemma PageRoundTrip(token: string)
    requires '"' !in token
    ensures HiddenToken(DecoyPage(token)) == Some(token)
  {
    FillRoundTrip(PageHead, token, PageTail);
  }

  /** A response: an HTML page or a JSON object, with its status code. */
  datatype Response = Html(status: nat, text: string) | Json(status: nat, fields: map<string, string>)

  /**
   * `get`: log the query map under the fresh token `issued`, and answer 200
   * with the decoy page carrying the same token.
   */
  function Get(d: Detectors, req: Incoming, issued: Uuid): (r: (Logged, Response))
    ensures r.0.event.httpMethod == GET && r.0.event.data == Some(req.query)
    ensures r.0.event.correlationToken == Some(UuidText(issued))
    ensures r.1.Html? && r.1.status == 200
    ensures HiddenToken(r.1.text) == r.0.event.correlationToken
  {
    PageRoundTrip(UuidText(issued));
    (LogEvent(d, req, GET, Some(UuidText(issued))), Html(200, DecoyPage(UuidText(issued))))
  }

  /** The field a follow-up POST carries the correlation token in. */
  const TokenField := "ctoken"

  /**
   * `post`: log the body map under the token the client sent (none if it
   * sent none, unchecked otherwise) and acknowledge. Only map-shaped bodies
   * are modelled; any other JSON body raises before anything is logged.
   */
  function Post(d: Detectors, req: Incoming): (r: (Logged, Response))
    ensures r.0.event.httpMethod == POST && r.0.event.data == Some(req.body)
    ensures r.0.event.correlationToken == Lookup(req.body, TokenField)
    ensures r.1 == Json(200, map["status" := "ok"])
  {
    (LogEvent(d, req, POST, Lookup(req.body, TokenField)), Json(200, map["status" := "ok"]))
  }

  /** The acknowledgement does not depend on the detectors or on what was sent. */
  lemma PostAlwaysAcknowledges(d1: Detectors, d2: Detectors, req1: Incoming, req2: Incoming)
    ensures Post(d1, req1).1 == Post(d2, req2).1
  {
  }

  /**
   * A client that submits the decoy form sends the page's hidden token back
   * as `ctoken`; the POST event then carries the GET event's token.
   */
  lemma CorrelationRoundTrip(d: Detectors, first: Incoming, issued: Uuid, follow: Incoming)
    requires Lookup(follow.body, TokenField) == HiddenToken(Get(d, first, issued).1.text)
    ensures Post(d, follow).0.event.correlationToken == Get(d, first, issued).0.event.correlationToken
    ensures Post(d, follow).0.event.correlationToken.Some?
  {
  }

  /** The token field is scanned like any other field of the body. */
  lemma TokenFieldIsScanned(d: Detectors, req: Incoming, i: nat, f: Finding)
    requires i < |req.body| && req.body[i].0 == TokenField
    requires f in d.extractAttacks(req.body[i].1)
    ensures RecordOf(TokenField, f) in Post(d, req).0.attacks
  {
    var j :| 0 <= j < |d.extractAttacks(req.body[i].1)| && d.extractAttacks(req.body[i].1)[j] == f;
    RecordMembership(d, req.body, RecordOf(TokenField, f));
  }
}

=== FILE: literals.dfy ===
/**
 * Python `re.search` for patterns that are a plain alternation of literal
 * strings, compiled with `re.IGNORECASE`: the leftmost position where any
 * alternative matches wins, and at that position the first alternative in
 * pattern order that matches is taken. Alternatives are written in lower
 * case; case folding is ASCII only.
 */
module Literals {
  import opened Wrappers
  import opened Text

  /** A regex match: where it starts and the text it covers. */
  datatype Hit = Hit(pos: nat, text: string)

  /** Some alternative matches at position `p`. */
  predicate AnyAt(alts: seq<string>, s: string, p: nat) {
    exists k :: 0 <= k < |alts| && MatchesAt(s, p, alts[k])
  }

  /** Some alternative occurs anywhere in `s`. */
  predicate AnyIn(alts: seq<string>, s: string) {
    exists k :: 0 <= k < |alts| && ContainsCI(s, alts[k])
  }

  /** The first alternative, from index `k` on, that matches at position `p`. */
  function FirstAltFrom(alts: seq<string>, s: string, p: nat, k: nat): (r: Option<nat>)
    requires k <= |alts|
    ensures r.Some? ==> k <= r.value < |alts| && MatchesAt(s, p, alts[r.value])
    ensures r.Some? ==> forall m :: k <= m < r.value ==> !MatchesAt(s, p, alts[m])
    ensures r.None? ==> forall m :: k <= m < |alts| ==> !MatchesAt(s, p, alts[m])
    decreases |alts| - k
  {
    if k == |alts| then None
    else if MatchesAt(s, p, alts[k]) then Some(k)
    else FirstAltFrom(alts, s, p, k + 1)
  }

  /** The text the alternation matches when the match is tried at position `p` only. */
  function TextAt(alts: seq<string>, s: string, p: nat): (r: Option<string>)
    ensures r.Some? <==> AnyAt(alts, s, p)
    ensures r.Some? ==> OccursAt(s, p, r.value) && LowerStr(r.value) in alts
  {
    match FirstAltFrom(alts, s, p, 0)
    case None => None
    case Some(k) =>
      MatchedTextFolds(s, p, alts[k]);
      Some(s[p..p + |alts[k]|])
  }

  /** Try positions `i`, `i + 1`, ..., `|s|` in turn; the first one that matches wins. */
  function SearchFrom(alts: seq<string>, s: string, i: nat): (r: Option<Hit>)
    requires i <= |s| + 1
    ensures r.Some? ==> i <= r.value.pos <= |s| && TextAt(alts, s, r.value.pos) == Some(r.value.text)
    ensures r.Some? ==> forall p :: i <= p < r.value.pos ==> TextAt(alts, s, p).None?
    ensures r.None? ==> forall p :: i <= p <= |s| ==> TextAt(alts, s, p).None?
    decreases |s| + 1 - i
  {
    if i > |s| then None
    else
      var t := TextAt(alts, s, i);
      if t.Some? then Some(Hit(i, t.value)) else SearchFrom(alts, s, i + 1)
  }

  /** `re.search` of an unanchored literal alternation: the leftmost match, if any. */
  function Locate(alts: seq<string>, s: string): (r: Option<Hit>)
    ensures r.Some? ==> r.value.pos <= |s| && TextAt(alts, s, r.value.pos) == Some(r.value.text)
    ensures r.Some? ==> forall p :: 0 <= p < r.value.pos ==> !AnyAt(alts, s, p)
    ensures r.None? <==> !AnyIn(alts, s)
  {
    var r := SearchFrom(alts, s, 0);
    assert AnyIn(alts, s) ==> r.Some? by {
      if AnyIn(alts, s) {
        var k :| 0 <= k < |alts| && ContainsCI(s, alts[k]);
        var p: nat :| p <= |s| && MatchesAt(s, p, alts[k]);
        assert TextAt(alts, s, p).Some?;
      }
    }
    forall p | r.Some? && 0 <= p < r.value.pos
      ensures !AnyAt(alts, s, p)
    {
      assert TextAt(alts, s, p).None?;
    }
    assert r.Some? ==> AnyIn(alts, s) by {
      if r.Some? {
        assert AnyAt(alts, s, r.value.pos);
        var k :| 0 <= k < |alts| && MatchesAt(s, r.value.pos, alts[k]);
        assert ContainsCI(s, alts[k]);
      }
    }
    r
  }

  /** The matched substring of an unanchored literal alternation, or `None`. */
  function Search(alts: seq<string>, s: string): (r: Option<string>)
    ensures r.Some? <==> AnyIn(alts, s)
    ensures r.Some? ==> LowerStr(r.value) in alts
    ensures r.Some? ==> exists p: nat | p <= |s| :: OccursAt(s, p, r.value)
  {
    match Locate(alts, s)
    case None => None
    case Some(h) => Some(h.text)
  }

  /** The matched substring of `^(alt1|alt2|...)` without MULTILINE: only position 0 is tried. */
  function SearchAnchored(alts: seq<string>, s: string): (r: Option<string>)
    ensures r.Some? <==> AnyAt(alts, s, 0)
    ensures r.Some? ==> r.value <= s && LowerStr(r.value) in alts
  {
    TextAt(alts, s, 0)
  }

  /** Two alternations that match the same text at every position give the same search result. */
  lemma {:induction false} SearchFromPointwise(a: seq<string>, b: seq<string>, s: string, i: nat)
    requires i <= |s| + 1
    requires forall p: nat :: TextAt(a, s, p) == TextAt(b, s, p)
    ensures SearchFrom(a, s, i) == SearchFrom(b, s, i)
    decreases |s| + 1 - i
  {
    if i <= |s| && TextAt(a, s, i).None? {
      SearchFromPointwise(a, b, s, i + 1);
    }
  }

  /** Appending an alternative: the old first match stays first; the new one only helps where none matched. */
  lemma {:induction false} FirstAltAppend(alts: seq<string>, x: string, s: string, p: nat, k: nat)
    requires k <= |alts|
    ensures FirstAltFrom(alts + [x], s, p, k) ==
      match FirstAltFrom(alts, s, p, k)
      case Some(m) => Some(m)
      case None => if MatchesAt(s, p, x) then Some(|alts|) else None
    decreases |alts| - k
  {
    var all := alts + [x];
    if k < |alts| {
      assert all[k] == alts[k];
      if !MatchesAt(s, p, alts[k]) {
        FirstAltAppend(alts, x, s, p, k + 1);
      }
    } else {
      assert all[k] == x;
    }
  }

  /**
   * An alternative that extends an earlier one never changes the result:
   * wherever the longer one matches, the shorter one, which comes first,
   * matches as well.
   */
  lemma RedundantExtension(alts: seq<string>, extra: string, s: string)
    requires exists k :: 0 <= k < |alts| && alts[k] <= extra
    ensures Search(alts + [extra], s) == Search(alts, s)
  {
    var k :| 0 <= k < |alts| && alts[k] <= extra;
    var all := alts + [extra];
    forall p: nat
      ensures TextAt(all, s, p) == TextAt(alts, s, p)
    {
      FirstAltAppend(alts, extra, s, p, 0);
      if MatchesAt(s, p, extra) {
        assert MatchesAt(s, p, alts[k]);
      }
      match FirstAltFrom(alts, s, p, 0)
      case Some(m) => assert all[m] == alts[m];
      case None =>
    }
    SearchFromPointwise(all, alts, s, 0);
  }

  /**
   * Two alternatives that can never match at the same position may be listed
   * in either order.
   */
  lemma SwapExclusive(a: string, b: string, s: string)
    requires forall p: nat :: !(MatchesAt(s, p, a) && MatchesAt(s, p, b))
    ensures Search([a, b], s) == Search([b, a], s)
  {
    forall p: nat
      ensures TextAt([a, b], s, p) == TextAt([b, a], s, p)
    {
      var ab, ba := [a, b], [b, a];
      assert ab[0] == a && ab[1] == b && ba[0] == b && ba[1] == a;
      if MatchesAt(s, p, a) {
        assert FirstAltFrom(ab, s, p, 0) == Some(0);
        assert FirstAltFrom(ba, s, p, 1) == Some(1);
      } else if MatchesAt(s, p, b) {
        assert FirstAltFrom(ab, s, p, 1) == Some(1);
        assert FirstAltFrom(ba, s, p, 0) == Some(0);
      } else {
        assert FirstAltFrom(ab, s, p, 0).None?;
        assert FirstAltFrom(ba, s, p, 0).None?;
      }
    }
    SearchFromPointwise([a, b], [b, a], s, 0);
  }
}

=== FILE: patterns.dfy ===
/**
 * The signature catalog: 34 (name, category, pattern) entries in a fixed
 * order. Patterns that are a plain alternation of literal strings are
 * matched by `Literals`; every other pattern is handed, by its source text
 * and its DOTALL flag, to a regex engine that is a parameter of the model.
 * All patterns are compiled case-insensitively.
 */
module Patterns {
  import opened Wrappers
  import opened Text
  import opened Enums
  import opened Literals

  /**
   * Python's `re.search(source, value, IGNORECASE [| DOTALL])`, returning the
   * matched text: the behaviour of backtracking patterns is not modelled.
   */
  type RegexEngine = (string, bool, string) -> Option<string>

  /** How one signature's pattern is evaluated. */
  datatype Matcher =
    | Literal(alternatives: seq<string>)   // `a|b|...` of literal strings, searched anywhere
    | Anchored(alternatives: seq<string>)  // `^(a|b|...)`: tried at the start of the value only
    | Regex(source: string, dotAll: bool)  // any other pattern, evaluated by the engine

  /** One catalog entry. */
  datatype Signature = Signature(name: PatternName, category: AttackCategory, matcher: Matcher)

  /** The names of the signatures, one constructor per catalog entry. */
  datatype PatternName =
    | ScriptTag
    | IframeTag
    | ImgOnerror
    | EventHandler
    | JsScheme
    | DataHtml
    | CssExpression
    | MetaRefresh
    | ObjectEmbed
    | SvgTag
    | UnionSelect
    | Or1Equals1
    | SqlComment
    | DropTable
    | ExecSp
    | InformationSchema
    | EtcPasswd
    | ProcSelf
    | WindowsPath
    | PhpWrapper
    | FileWrapper
    | PipeCommand
    | CommandChaining
    | Subshell
    | NcListener
    | ReverseShell
    | DotDotSlash
    | AbsolutePath
    | EncodedTraversal
    | Jinja2Template
    | SmartyTemplate
    | FreemarkerTemplate
    | VelocityTemplate
    | TwigTemplate
  {
    /** The name recorded in an attack record's `pattern` column. */
    function Text(): string {
      match this
      case ScriptTag => "script_tag"
      case IframeTag => "iframe_tag"
      case ImgOnerror => "img_onerror"
      case EventHandler => "event_handler"
      case JsScheme => "js_scheme"
      case DataHtml => "data_html"
      case CssExpression => "css_expression"
      case MetaRefresh => "meta_refresh"
      case ObjectEmbed => "object_embed"
      case SvgTag => "svg_tag"
      case UnionSelect => "union_select"
      case Or1Equals1 => "or_1_equals_1"
      case SqlComment => "sql_comment"
      case DropTable => "drop_table"
      case ExecSp => "exec_sp"
      case InformationSchema => "information_schema"
      case EtcPasswd => "etc_passwd"
      case ProcSelf => "proc_self"
      case WindowsPath => "windows_path"
      case PhpWrapper => "php_wrapper"
      case FileWrapper => "file_wrapper"
      case PipeCommand => "pipe_command"
      case CommandChaining => "command_chaining"
      case Subshell => "subshell"
      case NcListener => "nc_listener"
      case ReverseShell => "reverse_shell"
      case DotDotSlash => "dot_dot_slash"
      case AbsolutePath => "absolute_path"
      case EncodedTraversal => "encoded_traversal"
      case Jinja2Template => "jinja2_template"
      case SmartyTemplate => "smarty_template"
      case FreemarkerTemplate => "freemarker_template"
      case VelocityTemplate => "velocity_template"
      case TwigTemplate => "twig_template"
    }
  }

  /** The catalog's cross-site scripting signatures, in source order. */
  const XssNames: seq<PatternName> :=
    [ScriptTag, IframeTag, ImgOnerror, EventHandler, JsScheme, DataHtml, CssExpression, MetaRefresh, ObjectEmbed, SvgTag]
  /** The SQL injection signatures. */
  const SqliNames: seq<PatternName> := [UnionSelect, Or1Equals1, SqlComment, DropTable, ExecSp, InformationSchema]
  /** The local file inclusion signatures. */
  const LfiNames: seq<PatternName> := [EtcPasswd, ProcSelf, WindowsPath, PhpWrapper, FileWrapper]
  /** The command injection signatures. */
  const CmdNames: seq<PatternName> := [PipeCommand, CommandChaining, Subshell, NcListener, ReverseShell]
  /** The directory traversal signatures. */
  const TraversalNames: seq<PatternName> := [DotDotSlash, AbsolutePath, EncodedTraversal]
  /** The template injection signatures. */
  const SstiNames: seq<PatternName> := [Jinja2Template, SmartyTemplate, FreemarkerTemplate, VelocityTemplate, TwigTemplate]

  /** The catalog order of the signatures (the source's list order). */
  const Order: seq<PatternName> := XssNames + SqliNames + LfiNames + CmdNames + TraversalNames + SstiNames

  /** The category each signature is filed under. */
  function CategoryOf(n: PatternName): AttackCategory {
    match n
    case ScriptTag | IframeTag | ImgOnerror | EventHandler | JsScheme | DataHtml | CssExpression | MetaRefresh | ObjectEmbed | SvgTag => XSS
    case UnionSelect | Or1Equals1 | SqlComment | DropTable | ExecSp | InformationSchema => SQLI
    case EtcPasswd | ProcSelf | WindowsPath | PhpWrapper | FileWrapper => LFI
    case PipeCommand | CommandChaining | Subshell | NcListener | ReverseShell => CMD
    case DotDotSlash | AbsolutePath | EncodedTraversal => TRAVERSAL
    case Jinja2Template | SmartyTemplate | FreemarkerTemplate | VelocityTemplate | TwigTemplate => SSTI
  }

  /** Each signature's pattern; every one is compiled with IGNORECASE. */
  function MatcherOf(n: PatternName): Matcher {
    match n
    case ScriptTag => Regex(@"<\s*script\b[^>]*>.*?</script>", true)
    case IframeTag => Regex(@"<\s*iframe\b[^>]*>.*?</iframe>", true)
    case ImgOnerror => Regex(@"<\s*img\b[^>]*\bonerror\s*=[^>]*>", false)
    case EventHandler => Regex(@"<[^>]*\bon[a-z\-]+\s*=[^>]*>", false)
    case JsScheme => Regex(@"javascript\s*:", false)
    case DataHtml => Regex(@"data:\s*text/html", false)
    case CssExpression => Regex(@"expression\s*\(", false)
    case MetaRefresh => Regex(@"<\s*meta\b[^>]*http-equiv=['\""]?refresh", false)
    case ObjectEmbed => Regex(@"<\s*(object|embed|applet)\b[^>]*>", false)
    case SvgTag => Regex(@"<\s*svg\b[^>]*>", false)
    case UnionSelect => Regex(@"\bunion\s+select\b", false)
    case Or1Equals1 => Regex(@"\bor\s+['\""]?1['\""]?\s*=\s*['\""]?1['\""]?", false)
    case SqlComment => Regex(@"--\s*$|/\*.*?\*/", true)
    case DropTable => Regex(@"\bdrop\s+table\b", false)
    case ExecSp => Regex(@"\bexec\s*\(|\bexecute\s*\(|xp_cmdshell", false)
    case InformationSchema => Literal(["information_schema", "sys.", "mysql."])
    case EtcPasswd => Regex(@"\.\./.*?etc/passwd|\.\.\\\.\.\\etc\\passwd", false)
    case ProcSelf => Regex(@"\.\./.*?proc/self|\.\.\\\.\.\\proc\\self", false)
    case WindowsPath => Literal(["..\\..\\", "../../"])
    case PhpWrapper => Literal(["php://filter", "php://input", "php://expect", "php://data"])
    case FileWrapper => Literal(["file://", "file:///"])
    case PipeCommand => Regex(@"[;&|`]\s*(ls|cat|whoami|id|uname|pwd|dir)", false)
    case CommandChaining => Regex(@"[;&|`]\s*$|&&|\|\|", false)
    case Subshell => Regex(@"\$\([^)]+\)|`[^`]+`", false)
    case NcListener => Regex(@"nc\s+-l|netcat\s+-l|ncat\s+-l", false)
    case ReverseShell => Regex(@"bash\s+-i|sh\s+-i|/bin/(sh|bash)\s+-i", false)
    case DotDotSlash => Literal(["../../", "..\\..\\"])
    case AbsolutePath => Anchored(["/etc", "/usr", "/var", "/home", "/root", "/windows", "/system32"])
    case EncodedTraversal => Literal(["..%2f", "..%5c", "%2e%2e%2f", "%2e%2e%5c"])
    case Jinja2Template => Regex(@"\{\{.*?\}\}|\{%\s*.*?\s*%\}", false)
    case SmartyTemplate => Regex(@"\{.*?\}|\{if\s+.*?\}", false)
    case FreemarkerTemplate => Regex(@"\$\{.*?\}|<#.*?>", false)
    case VelocityTemplate => Regex(@"\$!?\{.*?\}", false)
    case TwigTemplate => Regex(@"\{\{.*?\}\}|\{%\s*.*?\s*%\}", false)
  }

  /** The position of a signature in `Order`. */
  function Ordinal(n: PatternName): nat {
    match n
    case ScriptTag => 0
    case IframeTag => 1
    case ImgOnerror => 2
    case EventHandler => 3
    case JsScheme => 4
    case DataHtml => 5
    case CssExpression => 6
    case MetaRefresh => 7
    case ObjectEmbed => 8
    case SvgTag => 9
    case UnionSelect => 10
    case Or1Equals1 => 11
    case SqlComment => 12
    case DropTable => 13
    case ExecSp => 14
    case InformationSchema => 15
    case EtcPasswd => 16
    case ProcSelf => 17
    case WindowsPath => 18
    case PhpWrapper => 19
    case FileWrapper => 20
    case PipeCommand => 21
    case CommandChaining => 22
    case Subshell => 23
    case NcListener => 24
    case ReverseShell => 25
    case DotDotSlash => 26
    case AbsolutePath => 27
    case EncodedTraversal => 28
    case Jinja2Template => 29
    case SmartyTemplate => 30
    case FreemarkerTemplate => 31
    case VelocityTemplate => 32
    case TwigTemplate => 33
  }

  /**
   * Reads a catalog name back from its spelling, looking only at its length
   * and at one character that tells it apart from the other names of that length.
   * The source has no such function: it is here only to prove that the names
   * are spelled distinctly.
   */
  function NameFromText(s: string): PatternName {
    if |s| == 7 then
      if s[6] == 'g' then SvgTag
      else ExecSp
    else if |s| == 8 then
      Subshell
    else if |s| == 9 then
      if s[8] == 'e' then JsScheme
      else if s[8] == 'l' then DataHtml
      else ProcSelf
    else if |s| == 10 then
      if s[3] == 'i' then ScriptTag
      else if s[9] == 'g' then IframeTag
      else if s[9] == 'e' then DropTable
      else EtcPasswd
    else if |s| == 11 then
      if s[9] == 'o' then ImgOnerror
      else if s[10] == 't' then SqlComment
      else if s[8] == 'p' then PhpWrapper
      else NcListener
    else if |s| == 12 then
      if s[10] == 's' then MetaRefresh
      else if s[9] == 'b' then ObjectEmbed
      else if s[11] == 't' then UnionSelect
      else if s[11] == 'h' then WindowsPath
      else if s[11] == 'r' then FileWrapper
      else PipeCommand
    else if |s| == 13 then
      if s[12] == 'r' then EventHandler
      else if s[12] == '1' then Or1Equals1
      else if s[12] == 'l' then ReverseShell
      else if s[11] == 's' then DotDotSlash
      else if s[12] == 'h' then AbsolutePath
      else TwigTemplate
    else if |s| == 14 then
      CssExpression
    else if |s| == 15 then
      if s[5] == '2' then Jinja2Template
      else SmartyTemplate
    else if |s| == 16 then
      CommandChaining
    else if |s| == 17 then
      if s[16] == 'l' then EncodedTraversal
      else VelocityTemplate
    else if |s| == 18 then
      InformationSchema
    else if |s| == 19 then
      FreemarkerTemplate
    else ScriptTag
  }

  // `NameFromText` undoes `Text`, checked one category at a time.

  lemma XssTextInverse(n: PatternName)
    ensures CategoryOf(n) == XSS ==> NameFromText(n.Text()) == n
  {
  }

  lemma SqliTextInverse(n: PatternName)
    ensures CategoryOf(n) == SQLI ==> NameFromText(n.Text()) == n
  {
  }

  lemma LfiTextInverse(n: PatternName)
    ensures CategoryOf(n) == LFI ==> NameFromText(n.Text()) == n
  {
  }

  lemma CmdTextInverse(n: PatternName)
    ensures CategoryOf(n) == CMD ==> NameFromText(n.Text()) == n
  {
  }

  lemma TraversalTextInverse(n: PatternName)
    ensures CategoryOf(n) == TRAVERSAL ==> NameFromText(n.Text()) == n
  {
  }

  lemma SstiTextInverse(n: PatternName)
    ensures CategoryOf(n) == SSTI ==> NameFromText(n.Text()) == n
  {
  }

  /** `NameFromText` undoes `Text`, so no two signatures are spelled alike. */
  lemma TextInverse(n: PatternName)
    ensures NameFromText(n.Text()) == n
  {
    XssTextInverse(n);
    SqliTextInverse(n);
    LfiTextInverse(n);
    CmdTextInverse(n);
    TraversalTextInverse(n);
    SstiTextInverse(n);
  }

  /** The catalog entry of a signature. */
  function SignatureOf(n: PatternName): (sig: Signature)
    ensures sig.name == n
  {
    Signature(n, CategoryOf(n), MatcherOf(n))
  }

  /** The catalog, in source order. */
  const Catalog: seq<Signature> := seq(|Order|, i requires 0 <= i < |Order| => SignatureOf(Order[i]))

  /** `re.search` of one signature against one value: the matched text, or `None`. */
  function SignatureSearch(engine: RegexEngine, sig: Signature, value: string): (r: Option<string>)
    ensures sig.matcher.Literal? ==> (r.Some? <==> AnyIn(sig.matcher.alternatives, value))
    ensures sig.matcher.Literal? && r.Some? ==> LowerStr(r.value) in sig.matcher.alternatives
    ensures sig.matcher.Anchored? ==> (r.Some? <==> AnyAt(sig.matcher.alternatives, value, 0))
    ensures sig.matcher.Anchored? && r.Some? ==> r.value <= value
    ensures sig.matcher.Regex? ==> r == engine(sig.matcher.source, sig.matcher.dotAll, value)
  {
    match sig.matcher
    case Literal(alts) => Search(alts, value)
    case Anchored(alts) => SearchAnchored(alts, value)
    case Regex(source, dotAll) => engine(source, dotAll, value)
  }

  // Each name of a group sits at its ordinal, counted from the group's offset.

  lemma XssOrdinals()
    ensures forall i | 0 <= i < |XssNames| :: Ordinal(XssNames[i]) == i
  {
  }

  lemma SqliOrdinals()
    ensures forall i | 0 <= i < |SqliNames| :: Ordinal(SqliNames[i]) == 10 + i
  {
  }

  lemma LfiOrdinals()
    ensures forall i | 0 <= i < |LfiNames| :: Ordinal(LfiNames[i]) == 16 + i
  {
  }

  lemma CmdOrdinals()
    ensures forall i | 0 <= i < |CmdNames| :: Ordinal(CmdNames[i]) == 21 + i
  {
  }

  lemma TraversalOrdinals()
    ensures forall i | 0 <= i < |TraversalNames| :: Ordinal(TraversalNames[i]) == 26 + i
  {
  }

  lemma SstiOrdinals()
    ensures forall i | 0 <= i < |SstiNames| :: Ordinal(SstiNames[i]) == 29 + i
  {
  }

  /** Each name of the order sits at its ordinal. */
  lemma OrderOrdinals()
    ensures |Order| == 34
    ensures forall i | 0 <= i < |Order| :: Ordinal(Order[i]) == i
  {
    XssOrdinals();
    SqliOrdinals();
    LfiOrdinals();
    CmdOrdinals();
    TraversalOrdinals();
    SstiOrdinals();
    var a := XssNames + SqliNames;
    var b := a + LfiNames;
    var c := b + CmdNames;
    var d := c + TraversalNames;
    assert forall i | 0 <= i < |a| :: Ordinal(a[i]) == i;
    assert forall i | 0 <= i < |b| :: Ordinal(b[i]) == i;
    assert forall i | 0 <= i < |c| :: Ordinal(c[i]) == i;
    assert forall i | 0 <= i < |d| :: Ordinal(d[i]) == i;
  }

  /** A signature's category is the group its ordinal falls in. */
  lemma CategoryByOrdinal(n: PatternName)
    ensures CategoryOf(n) == GroupOf(Ordinal(n))
  {
  }

  /** Every entry sits at the position its name's ordinal says. */
  lemma CatalogOrdinals()
    ensures |Catalog| == 34
    ensures forall i | 0 <= i < |Catalog| :: Ordinal(Catalog[i].name) == i
  {
    OrderOrdinals();
    assert forall i | 0 <= i < |Catalog| :: Catalog[i].name == Order[i];
  }

  /** The catalog has 34 entries and no two share a name. */
  lemma NamesDistinct()
    ensures |Catalog| == 34
    ensures forall i, j | 0 <= i < j < |Catalog| :: Catalog[i].name.Text() != Catalog[j].name.Text()
  {
    CatalogOrdinals();
    forall i, j | 0 <= i < j < |Catalog|
      ensures Catalog[i].name.Text() != Catalog[j].name.Text()
    {
      TextInverse(Catalog[i].name);
      TextInverse(Catalog[j].name);
      assert Ordinal(Catalog[i].name) != Ordinal(Catalog[j].name);
    }
  }

  /** The category each catalog position belongs to: XSS 10, SQLI 6, LFI 5, CMD 5, TRAVERSAL 3, SSTI 5. */
  function GroupOf(i: nat): AttackCategory {
    if i < 10 then XSS
    else if i < 16 then SQLI
    else if i < 21 then LFI
    else if i < 26 then CMD
    else if i < 29 then TRAVERSAL
    else SSTI
  }

  /** The catalog's categories follow the group layout, so `OTHER` is never used. */
  lemma CategoryLayout()
    ensures |Catalog| == 34
    ensures forall i | 0 <= i < |Catalog| :: Catalog[i].category == GroupOf(i)
    ensures forall i | 0 <= i < |Catalog| :: Catalog[i].category != OTHER
  {
    CatalogOrdinals();
    forall i | 0 <= i < |Catalog| ensures Catalog[i].category == GroupOf(i) {
      CategoryByOrdinal(Catalog[i].name);
    }
  }

  /** The order in which the category groups appear. */
  function Rank(c: AttackCategory): nat {
    match c
    case XSS => 0
    case SQLI => 1
    case LFI => 2
    case CMD => 3
    case TRAVERSAL => 4
    case SSTI => 5
    case OTHER => 6
  }

  /** Entries of one category are contiguous: nothing of another category sits between two of them. */
  predicate Grouped(sigs: seq<Signature>) {
    forall i, j, k | 0 <= i < j < k < |sigs| && sigs[i].category == sigs[k].category ::
      sigs[j].category == sigs[i].category
  }

  /** Ranks that never decrease between neighbours never decrease at all. */
  lemma {:induction false} RankSorted(sigs: seq<Signature>, i: nat, j: nat)
    requires forall m | 0 <= m < |sigs| - 1 :: Rank(sigs[m].category) <= Rank(sigs[m + 1].category)
    requires i <= j < |sigs|
    ensures Rank(sigs[i].category) <= Rank(sigs[j].category)
    decreases j - i
  {
    if i < j {
      RankSorted(sigs, i, j - 1);
    }
  }

  /** A list sorted by category rank is grouped by category. */
  lemma RankSortedIsGrouped(sigs: seq<Signature>)
    requires forall m | 0 <= m < |sigs| - 1 :: Rank(sigs[m].category) <= Rank(sigs[m + 1].category)
    ensures Grouped(sigs)
  {
    forall i, j, k | 0 <= i < j < k < |sigs| && sigs[i].category == sigs[k].category
      ensures sigs[j].category == sigs[i].category
    {
      RankSorted(sigs, i, j);
      RankSorted(sigs, j, k);
    }
  }

  /** The catalog's categories appear in contiguous groups, in the order XSS, SQLI, LFI, CMD, TRAVERSAL, SSTI. */
  lemma CatalogGrouped()
    ensures Grouped(Catalog)
  {
    CategoryLayout();
    RankSortedIsGrouped(Catalog);
  }

  /** `file://|file:///`: the second alternative is redundant, so the entry matches iff the value contains `file://`. */
  lemma FileWrapperMatches(engine: RegexEngine, value: string)
    ensures SignatureSearch(engine, SignatureOf(FileWrapper), value) == Search(["file://"], value)
    ensures SignatureSearch(engine, SignatureOf(FileWrapper), value).Some? <==> ContainsCI(value, "file://")
  {
    assert SignatureOf(FileWrapper).matcher == Literal(["file://"] + ["file:///"]);
    assert ["file://"][0] == "file://" <= "file:///";
    RedundantExtension(["file://"], "file:///", value);
  }

  /** The two backslash/slash forms of `../../` can never start at the same position. */
  lemma DotDotFormsExclusive(value: string, p: nat)
    ensures !(MatchesAt(value, p, "..\\..\\") && MatchesAt(value, p, "../../"))
  {
    assert "..\\..\\"[2] == '\\';
    assert "../../"[2] == '/';
  }

  /** The two spellings of "up two directories" that `windows_path` and `dot_dot_slash` look for. */
  const DoubleDots: seq<string> := ["..\\..\\", "../../"]

  /**
   * `windows_path` (LFI) and `dot_dot_slash` (TRAVERSAL) list the same two
   * alternatives in opposite orders: they match the same values with the same text.
   */
  lemma WindowsPathIsDotDotSlash(engine: RegexEngine, value: string)
    ensures SignatureSearch(engine, SignatureOf(WindowsPath), value) == SignatureSearch(engine, SignatureOf(DotDotSlash), value)
  {
    var back, fore := DoubleDots[0], DoubleDots[1];
    assert MatcherOf(WindowsPath) == Literal([back, fore]);
    assert MatcherOf(DotDotSlash) == Literal([fore, back]);
    forall p: nat
      ensures !(MatchesAt(value, p, back) && MatchesAt(value, p, fore))
    {
      DotDotFormsExclusive(value, p);
    }
    SwapExclusive(back, fore, value);
  }

  /** `windows_path` matches iff `../../` or `..\..\` occurs, ignoring case. */
  lemma WindowsPathMatches(engine: RegexEngine, value: string)
    ensures SignatureSearch(engine, SignatureOf(WindowsPath), value).Some? <==>
      exists k :: 0 <= k < |DoubleDots| && ContainsCI(value, DoubleDots[k])
  {
    assert SignatureOf(WindowsPath).matcher == Literal(DoubleDots);
  }

  /** `jinja2_template` and `twig_template` have the same source, so they always agree. */
  lemma TemplateTwins(engine: RegexEngine, value: string)
    ensures SignatureSearch(engine, SignatureOf(Jinja2Template), value) == SignatureSearch(engine, SignatureOf(TwigTemplate), value)
  {
  }

  /** The directories `absolute_path` looks for, each after a leading `/`. */
  const AbsoluteDirs: seq<string> := ["/etc", "/usr", "/var", "/home", "/root", "/windows", "/system32"]

  /**
   * `^/(etc|usr|...)`: a match only at the very start of the value, the match
   * being that prefix; nothing is required after the directory name.
   */
  lemma AbsolutePathMatches(engine: RegexEngine, value: string)
    ensures var r := SignatureSearch(engine, SignatureOf(AbsolutePath), value);
      && (r.Some? <==> exists k :: 0 <= k < |AbsoluteDirs| && MatchesAt(value, 0, AbsoluteDirs[k]))
      && (r.Some? ==> r.value <= value && LowerStr(r.value) in AbsoluteDirs)
  {
    assert SignatureOf(AbsolutePath).matcher == Anchored(AbsoluteDirs);
  }

  /** The four encodings `encoded_traversal` looks for. */
  const EncodedForms: seq<string> := ["..%2f", "..%5c", "%2e%2e%2f", "%2e%2e%5c"]

  /** `encoded_traversal` matches iff one of the four encodings occurs, ignoring case. */
  lemma EncodedTraversalMatches(engine: RegexEngine, value: string)
    ensures SignatureSearch(engine, SignatureOf(EncodedTraversal), value).Some? <==>
      exists k :: 0 <= k < |EncodedForms| && ContainsCI(value, EncodedForms[k])
  {
    assert SignatureOf(EncodedTraversal).matcher == Literal(EncodedForms);
  }

  /** The three markers `information_schema` looks for. */
  const SchemaMarkers: seq<string> := ["information_schema", "sys.", "mysql."]

  /** `information_schema` matches iff `information_schema`, `sys.` or `mysql.` occurs, ignoring case. */
  lemma InformationSchemaMatches(engine: RegexEngine, value: string)
    ensures SignatureSearch(engine, SignatureOf(InformationSchema), value).Some? <==>
      exists k :: 0 <= k < |SchemaMarkers| && ContainsCI(value, SchemaMarkers[k])
  {
    assert SignatureOf(InformationSchema).matcher == Literal(SchemaMarkers);
  }

  /** The four wrappers `php_wrapper` looks for: `php://` followed by one of filter, input, expect, data. */
  const PhpWrappers: seq<string> := ["php://filter", "php://input", "php://expect", "php://data"]

  /** `php_wrapper` matches iff one of the four wrappers occurs, ignoring case. */
  lemma PhpWrapperMatches(engine: RegexEngine, value: string)
    ensures SignatureSearch(engine, SignatureOf(PhpWrapper), value).Some? <==>
      exists k :: 0 <= k < |PhpWrappers| && ContainsCI(value, PhpWrappers[k])
  {
    assert SignatureOf(PhpWrapper).matcher == Literal(PhpWrappers);
  }
}

=== FILE: request.dfy ===
/**
 * The inbound request as the core sees it: a field map (query parameters
 * for GET, the parsed body for POST) in insertion order, and the WSGI
 * `META` map of headers and connection data. Python's `dict.get` and
 * truthiness of optional strings are spelled out here.
 */
module Request {
  import opened Wrappers

  /** A field map, one (key, value) pair per field in insertion order. */
  type Params = seq<(string, string)>

  /** `request.META`: header and connection variables. */
  type Meta = map<string, string>

  /** `params.get(key)`: the value of the first pair with that key. */
  function Lookup(params: Params, key: string): (r: Option<string>)
    ensures r.None? <==> forall i :: 0 <= i < |params| ==> params[i].0 != key
    ensures r.Some? ==> exists i :: (0 <= i < |params| && params[i] == (key, r.value)
                                     && forall j :: 0 <= j < i ==> params[j].0 != key)
  {
    if params == [] then None
    else if params[0].0 == key then Some(params[0].1)
    else
      var r := Lookup(params[1..], key);
      assert forall i :: 1 <= i < |params| ==> params[i] == params[1..][i - 1];
      r
  }

  /** `meta.get(key)`. */
  function MetaGet(meta: Meta, key: string): (r: Option<string>)
    ensures r.Some? <==> key in meta
    ensures r.Some? ==> r.value == meta[key]
  {
    if key in meta then Some(meta[key]) else None
  }

  /** Python truthiness of an optional string: present and non-empty. */
  predicate Truthy(v: Option<string>) {
    v.Some? && v.value != ""
  }

  /** Python's `a or b` on optional strings. */
  function Or(a: Option<string>, b: Option<string>): (r: Option<string>)
    ensures Truthy(a) ==> r == a
    ensures !Truthy(a) ==> r == b
  {
    if Truthy(a) then a else b
  }
}

=== FILE: scanner.dfy ===
/**
 * Scanning one value against the catalog. A full sweep returns one finding
 * per signature that matches, in catalog order, which is the shape of
 * `extract_attacks`' result.
 */
module Scanner {
  import opened Wrappers
  import opened Text
  import opened Enums
  import opened Patterns

  /** One signature match: (pattern name, category, matched text). */
  datatype Finding = Finding(pattern: string, category: AttackCategory, matched: string)

  /** The finding a signature contributes for a value, if it matches. */
  function FindingOf(engine: RegexEngine, sig: Signature, value: string): Option<Finding> {
    match SignatureSearch(engine, sig, value)
    case None => None
    case Some(m) => Some(Finding(sig.name.Text(), sig.category, m))
  }

  /** Full attack sweep: every signature of `sigs` that matches `value`, in list order. */
  function Sweep(engine: RegexEngine, sigs: seq<Signature>, value: string): (r: seq<Finding>)
    ensures |r| <= |sigs|
  {
    if sigs == [] then []
    else match FindingOf(engine, sigs[0], value)
      case Some(f) => [f] + Sweep(engine, sigs[1..], value)
      case None => Sweep(engine, sigs[1..], value)
  }

  /** A finding is in the sweep iff some signature of the list matched and produced it. */
  lemma {:induction false} SweepMembers(engine: RegexEngine, sigs: seq<Signature>, value: string, f: Finding)
    ensures f in Sweep(engine, sigs, value) <==>
      exists i :: 0 <= i < |sigs| && FindingOf(engine, sigs[i], value) == Some(f)
  {
    if sigs != [] {
      SweepMembers(engine, sigs[1..], value, f);
      if exists i :: 0 <= i < |sigs| && FindingOf(engine, sigs[i], value) == Some(f) {
        var i :| 0 <= i < |sigs| && FindingOf(engine, sigs[i], value) == Some(f);
        if i > 0 {
          assert sigs[1..][i - 1] == sigs[i];
        }
      }
      if exists i :: 0 <= i < |sigs[1..]| && FindingOf(engine, sigs[1..][i], value) == Some(f) {
        var i :| 0 <= i < |sigs[1..]| && FindingOf(engine, sigs[1..][i], value) == Some(f);
        assert sigs[i + 1] == sigs[1..][i];
      }
    }
  }

  /** Findings of earlier signatures come before findings of later ones. */
  lemma {:induction false} SweepAppend(engine: RegexEngine, a: seq<Signature>, b: seq<Signature>, value: string)
    ensures Sweep(engine, a + b, value) == Sweep(engine, a, value) + Sweep(engine, b, value)
  {
    if a == [] {
      assert a + b == b;
    } else {
      assert (a + b)[0] == a[0];
      assert (a + b)[1..] == a[1..] + b;
      SweepAppend(engine, a[1..], b, value);
    }
  }

  /** Where `windows_path` and `dot_dot_slash` sit in the catalog. */
  lemma DoubleDotEntries()
    ensures 18 < |Catalog| && Catalog[18] == SignatureOf(WindowsPath)
    ensures 26 < |Catalog| && Catalog[26] == SignatureOf(DotDotSlash)
  {
  }

  /**
   * In any signature list holding both `windows_path` and `dot_dot_slash`, a
   * value `windows_path` matches yields a finding from each, with the same
   * matched text.
   */
  lemma DoubleDotsHitTwiceIn(engine: RegexEngine, sigs: seq<Signature>, value: string, i: nat, j: nat)
    requires i < |sigs| && sigs[i] == SignatureOf(WindowsPath)
    requires j < |sigs| && sigs[j] == SignatureOf(DotDotSlash)
    requires SignatureSearch(engine, SignatureOf(WindowsPath), value).Some?
    ensures exists m :: (Finding("windows_path", LFI, m) in Sweep(engine, sigs, value)
                         && Finding("dot_dot_slash", TRAVERSAL, m) in Sweep(engine, sigs, value))
  {
    WindowsPathIsDotDotSlash(engine, value);
    var m := SignatureSearch(engine, SignatureOf(WindowsPath), value).value;
    assert FindingOf(engine, sigs[i], value) == Some(Finding("windows_path", LFI, m));
    assert FindingOf(engine, sigs[j], value) == Some(Finding("dot_dot_slash", TRAVERSAL, m));
    SweepMembers(engine, sigs, value, Finding("windows_path", LFI, m));
    SweepMembers(engine, sigs, value, Finding("dot_dot_slash", TRAVERSAL, m));
  }

  /**
   * A value containing `../../` or `..\..\` yields an LFI finding from
   * `windows_path` and a TRAVERSAL finding from `dot_dot_slash`, with the same
   * matched text.
   */
  lemma DoubleDotsHitTwice(engine: RegexEngine, value: string)
    requires ContainsCI(value, "../../") || ContainsCI(value, "..\\..\\")
    ensures exists m :: (Finding("windows_path", LFI, m) in Sweep(engine, Catalog, value)
                         && Finding("dot_dot_slash", TRAVERSAL, m) in Sweep(engine, Catalog, value))
  {
    WindowsPathMatches(engine, value);
    assert DoubleDots[0] == "..\\..\\" && DoubleDots[1] == "../../";
    DoubleDotEntries();
    DoubleDotsHitTwiceIn(engine, Catalog, value, 18, 26);
  }

  /** The traversal probe `../../../etc/passwd` is reported both as LFI and as TRAVERSAL. */
  lemma EtcPasswdProbe(engine: RegexEngine)
    ensures exists m :: (Finding("windows_path", LFI, m) in Sweep(engine, Catalog, "../../../etc/passwd")
                         && Finding("dot_dot_slash", TRAVERSAL, m) in Sweep(engine, Catalog, "../../../etc/passwd"))
  {
    var v := "../../../etc/passwd";
    assert MatchesAt(v, 0, "../../");
    DoubleDotsHitTwice(engine, v);
  }
}

=== FILE: serializers.dfy ===
/** The event list's user-agent snapshot. */
module Serializers {
  import opened Wrappers
  import opened Text

  /**
   * `get_agent_snapshot`: the part of the user agent before its first
   * space (`"Mozilla/5.0"` for a browser string), or nothing when the
   * agent is missing or empty.
   */
  function AgentSnapshot(agent: Option<string>): (r: Option<string>)
    ensures r.None? <==> agent.None? || agent.value == ""
    ensures r.Some? ==> r.value <= agent.value && ' ' !in r.value
    ensures r.Some? ==> |r.value| == |agent.value| || agent.value[|r.value|] == ' '
  {
    if agent.None? || agent.value == "" then None
    else Some(Split(agent.value, ' ')[0])
  }

  /** An agent without spaces is its own snapshot. */
  lemma SpacelessAgent(agent: string)
    requires agent != [] && ' ' !in agent
    ensures AgentSnapshot(Some(agent)) == Some(agent)
  {
  }

  /** An agent that opens with a space has the empty snapshot. */
  lemma LeadingSpaceAgent(agent: string)
    requires agent != [] && agent[0] == ' '
    ensures AgentSnapshot(Some(agent)) == Some("")
  {
  }

  /** The snapshot is the agent's first token: the agent is the snapshot, then a space or nothing. */
  lemma SnapshotIsFirstToken(agent: string, head: string, rest: string)
    requires ' ' !in head && agent == head + [' '] + rest
    ensures AgentSnapshot(Some(agent)) == Some(head)
  {
    IndexOfAfterFree(head, ' ', rest);
    assert agent[..|head|] == head;
  }
}

=== FILE: text.dfy ===
/**
 * String primitives with Python semantics: `str.isspace`, `str.strip`,
 * `str.split(sep)` for a one-character separator, and ASCII case folding
 * for case-insensitive matching.
 */
module Text {
  import opened Wrappers

  /** The characters for which Python's `str.isspace()` holds. */
  predicate IsSpace(c: char) {
    || c == ' ' || c == '\t' || c == '\n' || c == '\r'
    || c == '\U{000B}' || c == '\U{000C}'
    || ('\U{001C}' <= c <= '\U{001F}')
    || c == '\U{0085}' || c == '\U{00A0}' || c == '\U{1680}'
    || ('\U{2000}' <= c <= '\U{200A}')
    || c == '\U{2028}' || c == '\U{2029}' || c == '\U{202F}' || c == '\U{205F}' || c == '\U{3000}'
  }

  /** Every character is whitespace (the empty string included). */
  predicate IsBlank(s: string) {
    forall i :: 0 <= i < |s| ==> IsSpace(s[i])
  }

  /** Number of whitespace characters at the start of `s`. */
  function LeadingSpaces(s: string): (k: nat)
    ensures k <= |s|
    ensures IsBlank(s[..k])
    ensures k == |s| || !IsSpace(s[k])
  {
    if |s| > 0 && IsSpace(s[0]) then 1 + LeadingSpaces(s[1..]) else 0
  }

  /** Number of whitespace characters at the end of `s`. */
  function TrailingSpaces(s: string): (k: nat)
    ensures k <= |s|
    ensures IsBlank(s[|s| - k..])
    ensures k == |s| || !IsSpace(s[|s| - k - 1])
  {
    if |s| > 0 && IsSpace(s[|s| - 1]) then 1 + TrailingSpaces(s[..|s| - 1]) else 0
  }

  /** Python's `s.strip()`: drop leading and trailing whitespace. */
  function Strip(s: string): (r: string)
    ensures exists a, b :: 0 <= a <= b <= |s| && r == s[a..b] && IsBlank(s[..a]) && IsBlank(s[b..])
    ensures r == [] || (!IsSpace(r[0]) && !IsSpace(r[|r| - 1]))
    ensures r == [] <==> IsBlank(s)
  {
    var t := s[LeadingSpaces(s)..];
    var r := t[..|t| - TrailingSpaces(t)];
    assert r == s[LeadingSpaces(s)..|s| - TrailingSpaces(t)];
    r
  }

  /** Position of the first occurrence of `c` in `s`. */
  function IndexOf(s: string, c: char): (r: Option<nat>)
    ensures r.Some? ==> r.value < |s| && s[r.value] == c && c !in s[..r.value]
    ensures r.None? <==> c !in s
  {
    if |s| == 0 then None
    else if s[0] == c then Some(0)
    else match IndexOf(s[1..], c)
      case None => None
      case Some(k) => Some(k + 1)
  }

  /** The part of `s` before the first `c` (all of `s` when there is none). */
  function TakeUntil(s: string, c: char): (r: string)
    ensures r <= s && c !in r
    ensures |r| == |s| || s[|r|] == c
  {
    match IndexOf(s, c)
    case None => s
    case Some(k) => s[..k]
  }

  /** Text without outer whitespace is its own strip. */
  lemma StripTrimmed(s: string)
    requires s != [] && !IsSpace(s[0]) && !IsSpace(s[|s| - 1])
    ensures Strip(s) == s
  {
    assert LeadingSpaces(s) == 0 && s[0..] == s;
    assert TrailingSpaces(s) == 0 && s[..|s|] == s;
  }

  /** Python's `s.split(sep)` for a one-character separator: never empty, empty pieces kept. */
  function Split(s: string, sep: char): (parts: seq<string>)
    ensures |parts| >= 1
    ensures forall i :: 0 <= i < |parts| ==> sep !in parts[i]
    ensures parts[0] == TakeUntil(s, sep)
    decreases |s|
  {
    match IndexOf(s, sep)
    case None => [s]
    case Some(k) => [s[..k]] + Split(s[k + 1..], sep)
  }

  /** Python's `sep.join(parts)`: the inverse of `Split`. */
  function Join(parts: seq<string>, sep: char): string
    requires |parts| >= 1
  {
    if |parts| == 1 then parts[0] else parts[0] + [sep] + Join(parts[1..], sep)
  }

  /** One step of `Split`: the piece before the first separator, then the split of the rest. */
  lemma SplitStep(s: string, sep: char, k: nat)
    requires IndexOf(s, sep) == Some(k)
    ensures Split(s, sep) == [s[..k]] + Split(s[k + 1..], sep)
  {
  }

  /** One step of `Join`: the first piece, a separator, then the join of the rest. */
  lemma JoinStep(p: string, rest: seq<string>, sep: char)
    requires |rest| >= 1
    ensures Join([p] + rest, sep) == p + [sep] + Join(rest, sep)
  {
    assert ([p] + rest)[1..] == rest;
  }

  /** Joining the pieces of a split gives back the original string. */
  lemma {:induction false} JoinSplit(s: string, sep: char)
    ensures Join(Split(s, sep), sep) == s
    decreases |s|
  {
    match IndexOf(s, sep)
    case None =>
    case Some(k) =>
      SplitStep(s, sep, k);
      JoinSplit(s[k + 1..], sep);
      JoinStep(s[..k], Split(s[k + 1..], sep), sep);
      assert s == s[..k] + [sep] + s[k + 1..];
  }

  /** Splitting a join of separator-free pieces gives back the pieces. */
  lemma {:induction false} SplitJoin(parts: seq<string>, sep: char)
    requires |parts| >= 1
    requires forall i :: 0 <= i < |parts| ==> sep !in parts[i]
    ensures Split(Join(parts, sep), sep) == parts
  {
    if |parts| > 1 {
      var s := Join(parts, sep);
      var p := parts[0];
      assert s == p + [sep] + Join(parts[1..], sep);
      IndexOfAfterFree(p, sep, Join(parts[1..], sep));
      assert s[..|p|] == p;
      assert s[|p| + 1..] == Join(parts[1..], sep);
      SplitJoin(parts[1..], sep);
    }
  }

  /** The first `sep` in `p + [sep] + rest` is right after `p` when `p` has none. */
  lemma IndexOfAfterFree(p: string, sep: char, rest: string)
    requires sep !in p
    ensures IndexOf(p + [sep] + rest, sep) == Some(|p|)
  {
    var s := p + [sep] + rest;
    var r := IndexOf(s, sep);
    assert s[|p|] == sep;
    assert s[..|p|] == p;
  }

  /** ASCII lower-casing; every other character is left alone. */
  function Lower(c: char): (r: char)
    ensures 'A' <= c <= 'Z' ==> r as int == c as int + 32
    ensures !('A' <= c <= 'Z') ==> r == c
  {
    if 'A' <= c <= 'Z' then (c as int + 32) as char else c
  }

  /** ASCII lower-casing of a whole string. */
  function LowerStr(s: string): (r: string)
    ensures |r| == |s|
    ensures forall i :: 0 <= i < |s| ==> r[i] == Lower(s[i])
  {
    seq(|s|, i requires 0 <= i < |s| => Lower(s[i]))
  }

  /** `pat` (written in lower case) occurs in `s` at position `i`, ignoring ASCII case. */
  predicate MatchesAt(s: string, i: nat, pat: string) {
    && i + |pat| <= |s|
    && forall j :: 0 <= j < |pat| ==> Lower(s[i + j]) == pat[j]
  }

  /** `pat` occurs somewhere in `s`, ignoring ASCII case. */
  predicate ContainsCI(s: string, pat: string) {
    exists i: nat | i <= |s| :: MatchesAt(s, i, pat)
  }

  /** `t` occurs verbatim in `s` at position `p`. */
  predicate OccursAt(s: string, p: nat, t: string) {
    p + |t| <= |s| && s[p..p + |t|] == t
  }

  /** A case-insensitive occurrence, read back from `s`, folds to the pattern. */
  lemma MatchedTextFolds(s: string, i: nat, pat: string)
    requires MatchesAt(s, i, pat)
    ensures LowerStr(s[i..i + |pat|]) == pat
  {
  }
}

=== FILE: utils.dfy ===
/**
 * The request utilities: client IP resolution through proxy headers,
 * e-mail extraction from a submitted field map, geo headers, header
 * collection, HTML sanitising of free text, the honeypot-field check and
 * the tag histogram over submissions.
 */
module Utils {
  import opened Wrappers
  import opened Text
  import opened Request
  import Email

  // ---------------------------------------------------------------------
  // sanitize_text
  // ---------------------------------------------------------------------

  /** The five entities `html.escape` writes. */
  const Entities := ["&amp;", "&lt;", "&gt;", "&quot;", "&#x27;"]

  /** One of the five entities begins at `i`. */
  predicate EntityAt(r: string, i: nat)
    requires i <= |r|
  {
    exists k :: 0 <= k < |Entities| && Entities[k] <= r[i..]
  }

  /** Every `&` of `r` begins an entity: no bare ampersand is left. */
  predicate AmpersandsOpenEntities(r: string) {
    forall i :: 0 <= i < |r| && r[i] == '&' ==> EntityAt(r, i)
  }

  /** Each entity opens with its only `&`. */
  lemma EntityOpens(k: nat)
    requires k < |Entities|
    ensures AmpersandsOpenEntities(Entities[k])
  {
    var e := Entities[k];
    assert e[0..] == e;
    assert forall i :: 0 < i < |e| ==> e[i] != '&';
  }

  /** `html.escape` with `quote=True`, one character at a time. */
  function EscapeChar(c: char): (r: string)
    ensures c !in "&<>\"'" ==> r == [c]
    ensures |r| >= 1 && forall i :: 0 <= i < |r| ==> !Markup(r[i])
    ensures AmpersandsOpenEntities(r)
  {
    if c == '&' then EntityOpens(0); "&amp;"
    else if c == '<' then EntityOpens(1); "&lt;"
    else if c == '>' then EntityOpens(2); "&gt;"
    else if c == '"' then EntityOpens(3); "&quot;"
    else if c == '\'' then EntityOpens(4); "&#x27;"
    else [c]
  }

  /** Characters that never survive HTML escaping. */
  predicate Markup(c: char) {
    c == '<' || c == '>' || c == '"' || c == '\''
  }

  /** Two strings without markup characters concatenate to one without. */
  lemma NoMarkupConcat(a: string, b: string)
    requires forall i :: 0 <= i < |a| ==> !Markup(a[i])
    requires forall i :: 0 <= i < |b| ==> !Markup(b[i])
    ensures forall i :: 0 <= i < |a + b| ==> !Markup((a + b)[i])
  {
    forall i | 0 <= i < |a + b| ensures !Markup((a + b)[i]) {
      if i >= |a| {
        assert (a + b)[i] == b[i - |a|];
      }
    }
  }

  /** Two strings whose ampersands all open entities concatenate to one such string. */
  lemma EntitiesConcat(a: string, b: string)
    requires AmpersandsOpenEntities(a) && AmpersandsOpenEntities(b)
    ensures AmpersandsOpenEntities(a + b)
  {
    forall i | 0 <= i < |a + b| && (a + b)[i] == '&' ensures EntityAt(a + b, i) {
      if i < |a| {
        assert a[i] == '&';
        var k :| 0 <= k < |Entities| && Entities[k] <= a[i..];
        assert (a + b)[i..] == a[i..] + b;
      } else {
        assert (a + b)[i..] == b[i - |a|..];
        assert b[i - |a|] == '&';
      }
    }
  }

  /**
   * `html.escape(s)`: the five special characters become entities, so no
   * markup character and no bare `&` is left.
   */
  function HtmlEscape(s: string): (r: string)
    ensures forall i :: 0 <= i < |r| ==> !Markup(r[i])
    ensures AmpersandsOpenEntities(r)
    ensures |r| >= |s|
    decreases |s|
  {
    if s == [] then []
    else
      var head := EscapeChar(s[0]);
      var tail := HtmlEscape(s[1..]);
      NoMarkupConcat(head, tail);
      EntitiesConcat(head, tail);
      head + tail
  }

  /** Decodes the five entities `HtmlEscape` produces; anything else is kept. */
  function HtmlUnescape(s: string): string
    decreases |s|
  {
    if s == [] then []
    else if "&amp;" <= s then ['&'] + HtmlUnescape(s[5..])
    else if "&lt;" <= s then ['<'] + HtmlUnescape(s[4..])
    else if "&gt;" <= s then ['>'] + HtmlUnescape(s[4..])
    else if "&quot;" <= s then ['"'] + HtmlUnescape(s[6..])
    else if "&#x27;" <= s then ['\''] + HtmlUnescape(s[6..])
    else [s[0]] + HtmlUnescape(s[1..])
  }

  /** Unescaping one escaped character peels it back off. */
  lemma UnescapeStep(c: char, rest: string)
    ensures HtmlUnescape(EscapeChar(c) + rest) == [c] + HtmlUnescape(rest)
  {
    if c == '&' {
      UnescapeAmp(rest);
    } else if c == '<' {
      UnescapeLt(rest);
    } else if c == '>' {
      UnescapeGt(rest);
    } else if c == '"' {
      UnescapeQuot(rest);
    } else if c == '\'' {
      UnescapeApos(rest);
    } else {
      var s := [c] + rest;
      assert s[0] == c && s[1..] == rest;
    }
  }

  // Each entity at the front decodes to its character, and decoding continues after it.

  lemma UnescapeAmp(rest: string)
    ensures HtmlUnescape("&amp;" + rest) == ['&'] + HtmlUnescape(rest)
  {
    var s := "&amp;" + rest;
    assert s[1] == 'a' && s[..5] == "&amp;" && s[5..] == rest;
  }

  lemma UnescapeLt(rest: string)
    ensures HtmlUnescape("&lt;" + rest) == ['<'] + HtmlUnescape(rest)
  {
    var s := "&lt;" + rest;
    assert s[1] == 'l' && s[..4] == "&lt;" && s[4..] == rest;
  }

  lemma UnescapeGt(rest: string)
    ensures HtmlUnescape("&gt;" + rest) == ['>'] + HtmlUnescape(rest)
  {
    var s := "&gt;" + rest;
    assert s[1] == 'g' && s[..4] == "&gt;" && s[4..] == rest;
  }

  lemma UnescapeQuot(rest: string)
    ensures HtmlUnescape("&quot;" + rest) == ['"'] + HtmlUnescape(rest)
  {
    var s := "&quot;" + rest;
    assert s[1] == 'q' && s[..6] == "&quot;" && s[6..] == rest;
  }

  lemma UnescapeApos(rest: string)
    ensures HtmlUnescape("&#x27;" + rest) == ['\''] + HtmlUnescape(rest)
  {
    var s := "&#x27;" + rest;
    assert s[1] == '#' && s[..6] == "&#x27;" && s[6..] == rest;
  }

  /** Escaping loses nothing: unescaping gives the original text back. */
  lemma {:induction false} EscapeRoundTrip(s: string)
    ensures HtmlUnescape(HtmlEscape(s)) == s
    decreases |s|
  {
    if s != [] {
      EscapeRoundTrip(s[1..]);
      UnescapeStep(s[0], HtmlEscape(s[1..]));
      assert [s[0]] + s[1..] == s;
    }
  }

  /**
   * `sanitize_text`: `''` for a missing value, otherwise the stripped text
   * with HTML special characters escaped.
   */
  function SanitizeText(value: Option<string>): (r: string)
    ensures value.None? ==> r == ""
    ensures forall i :: 0 <= i < |r| ==> !Markup(r[i])
    ensures AmpersandsOpenEntities(r)
    ensures value.Some? ==> HtmlUnescape(r) == Strip(value.value)
  {
    match value
    case None => ""
    case Some(v) =>
      EscapeRoundTrip(Strip(v));
      HtmlEscape(Strip(v))
  }

  // ---------------------------------------------------------------------
  // get_client_ip
  // ---------------------------------------------------------------------

  const ForwardedHeader := "HTTP_X_FORWARDED_FOR"
  const LegacyForwardedHeader := "HTTP_FORWARDED_FOR"
  const RemoteAddr := "REMOTE_ADDR"

  /** The proxy chain the forwarded header names: its comma-separated entries. */
  function ChainEntries(forwarded: Option<string>): (r: seq<string>)
    ensures !Truthy(forwarded) ==> r == []
    ensures Truthy(forwarded) ==> |r| >= 1 && Join(r, ',') == forwarded.value
    ensures forall i :: 0 <= i < |r| ==> ',' !in r[i]
  {
    if Truthy(forwarded) then
      JoinSplit(forwarded.value, ',');
      Split(forwarded.value, ',')
    else []
  }

  /** The index of the first entry, from `i` on, that is not blank. */
  function NonBlankFrom(entries: seq<string>, i: nat): (r: Option<nat>)
    requires i <= |entries|
    ensures r.Some? ==> i <= r.value < |entries| && !IsBlank(entries[r.value])
    ensures r.Some? ==> forall j :: i <= j < r.value ==> IsBlank(entries[j])
    ensures r.None? ==> forall j :: i <= j < |entries| ==> IsBlank(entries[j])
    decreases |entries| - i
  {
    if i == |entries| then None
    else if !IsBlank(entries[i]) then Some(i)
    else NonBlankFrom(entries, i + 1)
  }

  /** The first entry that is not blank, stripped; `""` when every entry is blank. */
  function FirstNonBlank(entries: seq<string>): (r: string)
    ensures r == "" <==> forall i :: 0 <= i < |entries| ==> IsBlank(entries[i])
    ensures r != "" ==> exists i :: (0 <= i < |entries| && r == Strip(entries[i])
                                     && forall j :: 0 <= j < i ==> IsBlank(entries[j]))
  {
    match NonBlankFrom(entries, 0)
    case None => ""
    case Some(i) => Strip(entries[i])
  }

  /**
   * `get_client_ip`: the forwarded header (X-Forwarded-For, else the legacy
   * Forwarded-For) is returned unchanged as the second component; the IP is
   * the first non-blank chain entry, else `REMOTE_ADDR`, else `""`.
   */
  function GetClientIp(meta: Meta): (r: (string, Option<string>))
    ensures r.1 == (if Truthy(MetaGet(meta, ForwardedHeader)) then MetaGet(meta, ForwardedHeader)
                    else MetaGet(meta, LegacyForwardedHeader))
    ensures (forall i :: 0 <= i < |ChainEntries(r.1)| ==> IsBlank(ChainEntries(r.1)[i]))
            ==> r.0 == MetaGet(meta, RemoteAddr).GetOr("")
    ensures !(forall i :: 0 <= i < |ChainEntries(r.1)| ==> IsBlank(ChainEntries(r.1)[i]))
            ==> exists i :: (0 <= i < |ChainEntries(r.1)| && r.0 == Strip(ChainEntries(r.1)[i])
                             && !IsBlank(ChainEntries(r.1)[i])
                             && forall j :: 0 <= j < i ==> IsBlank(ChainEntries(r.1)[j]))
  {
    var forwarded := Or(MetaGet(meta, ForwardedHeader), MetaGet(meta, LegacyForwardedHeader));
    var fromChain := FirstNonBlank(ChainEntries(forwarded));
    var ip := if fromChain != "" then fromChain else MetaGet(meta, RemoteAddr).GetOr("");
    (ip, forwarded)
  }

  /** The chosen entry keeps out whatever no entry holds. */
  lemma FirstNonBlankShape(entries: seq<string>, c: char)
    requires forall i :: 0 <= i < |entries| ==> c !in entries[i]
    ensures c !in FirstNonBlank(entries)
  {
    if NonBlankFrom(entries, 0).Some? {
      StripKeepsOut(entries[NonBlankFrom(entries, 0).value], c);
    }
  }

  /** Stripping never introduces a character. */
  lemma StripKeepsOut(s: string, c: char)
    requires c !in s
    ensures c !in Strip(s)
  {
    var a, b :| 0 <= a <= b <= |s| && Strip(s) == s[a..b] && IsBlank(s[..a]) && IsBlank(s[b..]);
    assert forall k :: 0 <= k < b - a ==> s[a..b][k] == s[a + k];
  }

  /** An IP taken from the chain is one trimmed entry: no comma, no outer blanks. */
  lemma ChainIpIsOneEntry(meta: Meta)
    requires !(forall i :: 0 <= i < |ChainEntries(GetClientIp(meta).1)| ==> IsBlank(ChainEntries(GetClientIp(meta).1)[i]))
    ensures ',' !in GetClientIp(meta).0
    ensures GetClientIp(meta).0 != []
    ensures !IsSpace(GetClientIp(meta).0[0]) && !IsSpace(GetClientIp(meta).0[|GetClientIp(meta).0| - 1])
  {
    var entries := ChainEntries(GetClientIp(meta).1);
    FirstNonBlankShape(entries, ',');
    assert GetClientIp(meta).0 == FirstNonBlank(entries);
  }

  /** When X-Forwarded-For is set, the legacy header cannot influence the result. */
  lemma ForwardedHeaderWins(meta: Meta, legacy: string)
    requires Truthy(MetaGet(meta, ForwardedHeader))
    ensures GetClientIp(meta) == GetClientIp(meta[LegacyForwardedHeader := legacy])
    ensures GetClientIp(meta) == GetClientIp(meta - {LegacyForwardedHeader})
  {
    assert MetaGet(meta[LegacyForwardedHeader := legacy], ForwardedHeader) == MetaGet(meta, ForwardedHeader);
    assert MetaGet(meta - {LegacyForwardedHeader}, ForwardedHeader) == MetaGet(meta, ForwardedHeader);
  }

  /** A non-blank first entry of X-Forwarded-For is the client, whatever follows it. */
  lemma HeadOfChain(meta: Meta, client: string, rest: string)
    requires ForwardedHeader in meta && meta[ForwardedHeader] == client + [','] + rest
    requires ',' !in client && !IsBlank(client)
    ensures GetClientIp(meta).0 == Strip(client)
  {
    var v := client + [','] + rest;
    IndexOfAfterFree(client, ',', rest);
    assert v[..|client|] == client;
    assert ChainEntries(Some(v))[0] == client;
  }

  /** Character-level facts about the two-hop example below. */
  lemma TwoHopFacts(client: string, v: string)
    requires client == "203.0.113.1" && v == "203.0.113.1, 198.51.100.2"
    ensures v == client + [','] + " 198.51.100.2"
    ensures ',' !in client && !IsBlank(client) && Strip(client) == client
  {
    ClientFacts(client);
  }

  /** The client address of the example holds no comma and no space. */
  lemma ClientFacts(client: string)
    requires client == "203.0.113.1"
    ensures ',' !in client && !IsBlank(client) && Strip(client) == client
  {
    assert client[0] == '2';
    StripTrimmed(client);
  }

  /** A two-hop chain resolves to the client at its head; the header comes back verbatim. */
  lemma ProxyChainExample()
    ensures GetClientIp(map[ForwardedHeader := "203.0.113.1, 198.51.100.2"])
            == ("203.0.113.1", Some("203.0.113.1, 198.51.100.2"))
  {
    var client, v := "203.0.113.1", "203.0.113.1, 198.51.100.2";
    var meta := map[ForwardedHeader := v];
    TwoHopFacts(client, v);
    HeadOfChain(meta, client, " 198.51.100.2");
    assert MetaGet(meta, ForwardedHeader) == Some(v);
  }

  /** Without any proxy header the IP is `REMOTE_ADDR`, or `""` when that is missing too. */
  lemma DirectClient(meta: Meta)
    requires ForwardedHeader !in meta && LegacyForwardedHeader !in meta
    ensures GetClientIp(meta) == (MetaGet(meta, RemoteAddr).GetOr(""), None)
  {
  }

  // ---------------------------------------------------------------------
  // extract_email_from_payload
  // ---------------------------------------------------------------------

  /**
   * The fields searched, in this order: three fields meant for an address,
   * then the raw body, which is searched the same way.
   */
  const SearchOrder := ["email", "email_submitted", "contact_email", "raw_body"]

  /** A returned address: e-mail shaped, with an `@`, and already lower-case. */
  predicate IsAddress(e: string) {
    Email.Shaped(e) && '@' in e && LowerStr(e) == e
  }

  /**
   * The lower-cased first address in `field`: present exactly when the field
   * is truthy and some substring of it is e-mail shaped, and then the
   * leftmost-longest such substring.
   */
  function EmailIn(payload: Params, field: string): (r: Option<string>)
    ensures r.Some? <==> Truthy(Lookup(payload, field)) && Email.HasAddress(Lookup(payload, field).value)
    ensures r.Some? ==> exists p: nat, w :: Email.LeftmostLongest(Lookup(payload, field).value, p, w)
                                            && r.value == LowerStr(w)
    ensures r.Some? ==> IsAddress(r.value)
  {
    var v := Lookup(payload, field);
    if !Truthy(v) then None
    else
      match Email.Search(v.value)
      case None => None
      case Some(w) =>
        Email.LowerKeepsShape(w);
        Email.ShapeEnds(LowerStr(w));
        LowerTwice(w);
        Some(LowerStr(w))
  }

  /** Lower-casing is idempotent. */
  lemma LowerTwice(w: string)
    ensures LowerStr(LowerStr(w)) == LowerStr(w)
  {
  }

  /** The first present value of `xs`, scanning from the front. */
  function FirstSome<T>(xs: seq<Option<T>>): (r: Option<T>)
    ensures r.None? <==> forall i :: 0 <= i < |xs| ==> xs[i].None?
    ensures r.Some? ==> exists i :: 0 <= i < |xs| && r == xs[i] && forall j :: 0 <= j < i ==> xs[j].None?
    ensures forall k :: (0 <= k < |xs| && xs[k].Some? && (forall j :: 0 <= j < k ==> xs[j].None?))
                        ==> r == xs[k]
  {
    if xs == [] then None
    else if xs[0].Some? then xs[0]
    else
      var r := FirstSome(xs[1..]);
      assert forall i :: 1 <= i < |xs| ==> xs[i] == xs[1..][i - 1];
      r
  }

  /** The first present value of a list of lookups comes from the first key that yields one. */
  lemma FirstSomeWitness<K, T>(keys: seq<K>, f: K -> Option<T>, xs: seq<Option<T>>)
    requires |xs| == |keys| && forall i :: 0 <= i < |xs| ==> xs[i] == f(keys[i])
    ensures FirstSome(xs).Some? ==> exists k :: 0 <= k < |keys| && FirstSome(xs) == f(keys[k])
                                                && forall j :: 0 <= j < k ==> f(keys[j]).None?
  {
  }

  /** What each field of the search order yields, in that order. */
  function Candidates(payload: Params): (c: seq<Option<string>>)
    ensures |c| == |SearchOrder|
    ensures forall i :: 0 <= i < |c| ==> c[i] == EmailIn(payload, SearchOrder[i])
  {
    seq(|SearchOrder|, i requires 0 <= i < |SearchOrder| => EmailIn(payload, SearchOrder[i]))
  }

  /**
   * `extract_email_from_payload`: the first field of the search order that
   * yields an address wins; nothing else of the payload is looked at.
   */
  function ExtractEmail(payload: Params): (r: Option<string>)
    ensures r.None? <==> forall k :: 0 <= k < |SearchOrder| ==> EmailIn(payload, SearchOrder[k]).None?
    ensures r.Some? ==> exists k :: 0 <= k < |SearchOrder| && r == EmailIn(payload, SearchOrder[k])
                                    && forall j :: 0 <= j < k ==> EmailIn(payload, SearchOrder[j]).None?
    ensures r.Some? ==> IsAddress(r.value)
  {
    var c := Candidates(payload);
    FirstSomeWitness(SearchOrder, field => EmailIn(payload, field), c);
    FirstSome(c)
  }

  /** A field wins exactly when it yields an address and every earlier field yields none. */
  lemma EmailFallbackOrder(payload: Params, k: nat)
    requires k < |SearchOrder| && EmailIn(payload, SearchOrder[k]).Some?
    requires forall j :: 0 <= j < k ==> EmailIn(payload, SearchOrder[j]).None?
    ensures ExtractEmail(payload) == EmailIn(payload, SearchOrder[k])
  {
  }

  /** A payload without any of the searched fields yields no address, whatever else it holds. */
  lemma UnsearchedPayload(payload: Params)
    requires forall k | 0 <= k < |SearchOrder| :: Lookup(payload, SearchOrder[k]).None?
    ensures ExtractEmail(payload).None?
  {
  }

  /** A value in an unrelated field such as `message` is never searched. */
  lemma MessageFieldIgnored(text: string)
    ensures ExtractEmail([("message", text)]) == None
  {
    var payload := [("message", text)];
    assert forall k | 0 <= k < |SearchOrder| :: Lookup(payload, SearchOrder[k]).None?;
    UnsearchedPayload(payload);
  }

  // ---------------------------------------------------------------------
  // build_geo_from_headers
  // ---------------------------------------------------------------------

  const CountryHeader := "HTTP_CF_IPCOUNTRY"
  const FallbackCountryHeader := "HTTP_X_APPENGINE_COUNTRY"
  const CityHeader := "HTTP_CF_IPCITY"

  /** The geo dictionary: `country` is always a key (maybe null); `city` only when present. */
  datatype Geo = Geo(country: Option<string>, city: Option<string>)

  /** `build_geo_from_headers`. */
  function BuildGeo(meta: Meta): (r: Option<Geo>)
    ensures r.None? <==> !Truthy(MetaGet(meta, CountryHeader)) && !Truthy(MetaGet(meta, FallbackCountryHeader))
                         && !Truthy(MetaGet(meta, CityHeader))
    ensures r.Some? && Truthy(MetaGet(meta, CountryHeader)) ==> r.value.country == MetaGet(meta, CountryHeader)
    ensures r.Some? && !Truthy(MetaGet(meta, CountryHeader)) ==> r.value.country == MetaGet(meta, FallbackCountryHeader)
    ensures r.Some? ==> (r.value.city.Some? <==> Truthy(MetaGet(meta, CityHeader)))
    ensures r.Some? && r.value.city.Some? ==> r.value.city == MetaGet(meta, CityHeader)
  {
    var country := Or(MetaGet(meta, CountryHeader), MetaGet(meta, FallbackCountryHeader));
    var city := MetaGet(meta, CityHeader);
    if !Truthy(country) && !Truthy(city) then None
    else Some(Geo(country, if Truthy(city) then city else None))
  }

  // ---------------------------------------------------------------------
  // collect_headers
  // ---------------------------------------------------------------------

  /** The request variables that count as headers. */
  predicate IsHeaderKey(k: string) {
    "HTTP_" <= k || k == "CONTENT_TYPE" || k == "CONTENT_LENGTH"
  }

  /** `collect_headers`: a copy of exactly the header variables of `meta`. */
  method CollectHeaders(meta: Meta) returns (headers: Meta)
    ensures forall k :: k in headers <==> k in meta && IsHeaderKey(k)
    ensures forall k :: k in headers ==> headers[k] == meta[k]
  {
    headers := map[];
    var pending := meta.Keys;
    while pending != {}
      invariant pending <= meta.Keys
      invariant forall k :: k in headers <==> k in meta && k !in pending && IsHeaderKey(k)
      invariant forall k :: k in headers ==> headers[k] == meta[k]
      decreases pending
    {
      var k :| k in pending;
      if IsHeaderKey(k) {
        headers := headers[k := meta[k]];
      }
      pending := pending - {k};
    }
  }

  // ---------------------------------------------------------------------
  // has_honeypot_hit
  // ---------------------------------------------------------------------

  /** Fields hidden from people; only automated clients fill them. */
  const HoneypotFields := ["middle_name", "company"]

  /** `has_honeypot_hit`: some hidden field has a non-empty value. */
  function HasHoneypotHit(payload: Params): (r: bool)
    ensures r <==> exists i :: 0 <= i < |HoneypotFields| && Truthy(Lookup(payload, HoneypotFields[i]))
  {
    assert HoneypotFields[0] == "middle_name" && HoneypotFields[1] == "company";
    Truthy(Lookup(payload, "middle_name")) || Truthy(Lookup(payload, "company"))
  }

  /** Fields other than the hidden ones never trigger the check. */
  lemma HoneypotIgnoresOtherFields(payload: Params, key: string, value: string)
    requires key !in HoneypotFields
    ensures HasHoneypotHit(payload + [(key, value)]) == HasHoneypotHit(payload)
  {
    var extended := payload + [(key, value)];
    forall f | f in HoneypotFields ensures Lookup(extended, f) == Lookup(payload, f) {
      LookupPastEnd(payload, key, value, f);
    }
    assert HoneypotFields[0] in HoneypotFields && HoneypotFields[1] in HoneypotFields;
  }

  /** Appending a pair under another key leaves a lookup unchanged. */
  lemma {:induction false} LookupPastEnd(params: Params, key: string, value: string, f: string)
    requires f != key
    ensures Lookup(params + [(key, value)], f) == Lookup(params, f)
    decreases |params|
  {
    if params != [] {
      assert (params + [(key, value)])[1..] == params[1..] + [(key, value)];
      LookupPastEnd(params[1..], key, value, f);
    }
  }

  // ---------------------------------------------------------------------
  // summarize_tags
  // ---------------------------------------------------------------------

  /** A contact-form submission; only its detection tags matter here. */
  datatype Submission = Submission(detectionTags: Option<seq<string>>)

  /** `submission.detection_tags or []`. */
  function TagsOf(s: Submission): (r: seq<string>)
    ensures s.detectionTags.Some? ==> r == s.detectionTags.value
    ensures s.detectionTags.None? ==> r == []
  {
    s.detectionTags.GetOr([])
  }

  /** Every tag of every submission, in submission order. */
  function AllTags(subs: seq<Submission>): (r: seq<string>)
  {
    if subs == [] then [] else AllTags(subs[..|subs| - 1]) + TagsOf(subs[|subs| - 1])
  }

  /** `counts` is the histogram of the bag `tags`: its keys are exactly the tags that occur. */
  ghost predicate Histogram(counts: map<string, nat>, tags: multiset<string>) {
    (forall t :: t in counts <==> tags[t] > 0) && (forall t :: t in counts ==> counts[t] == tags[t])
  }

  /** Counting one more occurrence of `tag` keeps the histogram exact. */
  lemma HistogramAdd(counts: map<string, nat>, tags: multiset<string>, tag: string)
    requires Histogram(counts, tags)
    ensures Histogram(counts[tag := (if tag in counts then counts[tag] else 0) + 1], tags + multiset{tag})
  {
  }

  /** The inner loop of `summarize_tags`: count every tag of one list. */
  method CountTags(counts: map<string, nat>, ghost bag: multiset<string>, tags: seq<string>)
    returns (r: map<string, nat>)
    requires Histogram(counts, bag)
    ensures Histogram(r, bag + multiset(tags))
  {
    r := counts;
    var j := 0;
    while j < |tags|
      invariant 0 <= j <= |tags|
      invariant Histogram(r, bag + multiset(tags[..j]))
    {
      var tag := tags[j];
      assert tags[..j + 1] == tags[..j] + [tag];
      HistogramAdd(r, bag + multiset(tags[..j]), tag);
      r := r[tag := (if tag in r then r[tag] else 0) + 1];
      j := j + 1;
    }
    assert tags[..j] == tags;
  }

  /** `summarize_tags`: how often each tag occurs across all submissions. */
  method SummarizeTags(subs: seq<Submission>) returns (counts: map<string, nat>)
    ensures Histogram(counts, multiset(AllTags(subs)))
  {
    counts := map[];
    var i := 0;
    while i < |subs|
      invariant 0 <= i <= |subs|
      invariant Histogram(counts, multiset(AllTags(subs[..i])))
    {
      counts := CountTags(counts, multiset(AllTags(subs[..i])), TagsOf(subs[i]));
      assert subs[..i + 1][..i] == subs[..i];
      assert AllTags(subs[..i + 1]) == AllTags(subs[..i]) + TagsOf(subs[i]);
      i := i + 1;
    }
    assert subs[..i] == subs;
  }

  /** A submission without tags (missing or empty list) leaves the histogram as it was. */
  lemma UntaggedContributesNothing(subs: seq<Submission>, s: Submission)
    requires s.detectionTags.None? || s.detectionTags == Some([])
    ensures multiset(AllTags(subs + [s])) == multiset(AllTags(subs))
  {
    assert (subs + [s])[..|subs|] == subs;
  }
}

=== FILE: wrappers.dfy ===
/** Python's "value or None", as the source uses it for dictionary lookups and optional results. */
module Wrappers {

  datatype Option<+T> = None | Some(value: T) {

    /** The wrapped value, or `default` when there is none. */
    function GetOr(default: T): T {
      match this
      case Some(v) => v
      case None => default
    }
  }
}
